=== FILE: README.md ===
# Appsmith decision cores in Dafny

This project models seven small decision and transformation routines of Appsmith and proves properties about them. Each routine becomes one module:

- `EvalTree` (`evalTree.ts`): the evaluation worker's dispatcher. It keeps a per-session evaluator. It chooses between a first build, a full rebuild (cyclic dependency or forced evaluation) and an incremental update. It records and clears errors and logs. On a throw it falls back to the sanitised unevaluated tree. It then assembles either a single `newTree` patch or a diff. `clearCache` resets the session.
- `FocusEntity` (`FocusEntity.ts`): maps matched editor routes and IDE routes to the entity that holds the user's focus. Also covers the "should store URL" predicate, the focus-store hierarchy and git-branch comparison.
- `ApiRightPane` (`getDatasourceInfo`): the one-line datasource summary, for example `2 HEADERS | 1 QUERY PARAMETER | BASIC`.
- `AutoLayout` (`AutoLayoutUpdateSagas.tsx`):
  - clamping a reported widget size to its limits;
  - the last-write-wins dimension batch and the order `for...in` visits it;
  - turning the batch into new bottom rows and right columns;
  - the changed-fields-only position diff;
  - the positioning-type switch.
- `ColumnDropdown` (`useColumns.tsx`): column type names, the primary-column default, selection flags, the searchable filter, the dropdown options and the `show` flag of the one-click-binding column control.
- `UserWorkspace` (`UserWorkspaceServiceImpl.java`):
  - the last-administrator guard;
  - changing a user group's workspace role, with error order and role changes;
  - flattening roles into member rows;
  - the merged, sorted member list.
- `CustomUserRepository` (`CustomUserRepositoryImpl.java`): the criteria each user query assembles, the provisioned-filter parser, the paging record, the system-user set and the "make pristine" update.

Two supporting modules carry shared definitions:

- `Basics`: `Option`/`Result`, JavaScript truthiness of optional strings, ASCII case mapping, decimal rendering and `join`.
- `InsertionSort`: the insertion sort that stands for Java's `List.sort` (ordering and permutation are proved; stability is not).

Collaborators the routines call but whose code is not part of this model are parameters of the functions. This covers:

- the `DataTreeEvaluator` methods, the serialiser, the diff generator and the sanitiser, gathered in an `Engine` record;
- route matching and query-string parsing;
- canvas geometry and sibling repositioning;
- the member comparator, the regular-expression builder, and paged querying and counting.

Redux-saga effects and Reactor pipelines become returned values and plain control flow.

## Model

| member | source | states |
|---|---|---|
| EvalTree.BranchOf | app/client/src/workers/Evaluation/handlers/evalTree.ts:86-118 | First build exactly when there is no evaluator. Full rebuild exactly when there is one and it is cyclic or evaluation is forced. |
| EvalTree.WithValidationConfig | app/client/src/workers/Evaluation/handlers/evalTree.ts:119-136 | The validation config is installed only when it is non-empty; nothing else about the evaluator changes. |
| EvalTree.FirstBuildAttempt | app/client/src/workers/Evaluation/handlers/evalTree.ts:86-117 | The first-tree flag is set before anything can throw. The incremental-only fields keep their defaults. A build that completes is marked as a new tree. |
| EvalTree.FullRebuildAttempt | app/client/src/workers/Evaluation/handlers/evalTree.ts:118-158 | The first-tree flag is set iff `setupFirstTree` on the replacement evaluator returned. The output is never marked as a new tree. The incremental-only fields stay at their defaults. |
| EvalTree.IncrementalAttempt | app/client/src/workers/Evaluation/handlers/evalTree.ts:159-204 | Clears the first-tree flag. Once the update setup returns, the evaluation order, unevaluated updates, removed paths and new-widget flag are the setup's. If the setup throws, they keep their defaults. |
| EvalTree.Settle | app/client/src/workers/Evaluation/handlers/evalTree.ts:205-214 | Reports the evaluator's dependencies, errors and logs, then leaves the evaluator with empty errors and logs and otherwise unchanged. |
| EvalTree.Recover | app/client/src/workers/Evaluation/handlers/evalTree.ts:215-238 | Reported errors are the evaluator's plus one UNKNOWN_ERROR with the message, unless the error is crashing. The evaluator's own list gains the same entry. The tree is the sanitised unevaluated tree. Unevaluated updates are emptied and the output is a new tree. |
| EvalTree.MakeUpdates | app/client/src/workers/Evaluation/handlers/evalTree.ts:242-267 | A new tree yields one `newTree` patch holding the tree, and the tree becomes the previous state. If serialising fails the updates are "[]" and the evaluator is untouched. Otherwise the diff runs over the de-duplicated unevaluated-update paths followed by the evaluation order. |
| EvalTree.EvalTree | app/client/src/workers/Evaluation/handlers/evalTree.ts:47-293 | A pass always leaves an evaluator. The response echoes the config tree. Evaluation order, errors, flags and paths are those left by the try/catch. `undefinedEvalValuesMap` defaults to an empty map. |
| EvalTree.ClearCache | app/client/src/workers/Evaluation/handlers/evalTree.ts:309-315 | Drops the evaluator and answers true. |
| EvalTree.FirstBuildSendsNewTree | app/client/src/workers/Evaluation/handlers/evalTree.ts:86-117 | With no evaluator, the pass sets `isCreateFirstTree` and sends a new tree. |
| EvalTree.FullRebuildDiffs | app/client/src/workers/Evaluation/handlers/evalTree.ts:118-158 | In a full rebuild, `isCreateFirstTree` holds iff the setup returned. A rebuild that does not throw sends a diff, not a new tree. |
| EvalTree.OnlyIncrementalReportsDiffs | app/client/src/workers/Evaluation/handlers/evalTree.ts:53-63 | Outside the incremental branch, removed paths and unevaluated updates are empty and no new widget is reported. The incremental branch never sets `isCreateFirstTree`. |
| EvalTree.ErrorsReportedOnce | app/client/src/workers/Evaluation/handlers/evalTree.ts:205-214 | After a normal pass, the response carries the evaluator's errors and logs, and the next session's evaluator has none left. |
| EvalTree.ThrowFallsBack | app/client/src/workers/Evaluation/handlers/evalTree.ts:215-237 | After a throw, the whole sanitised unevaluated tree is sent and unevaluated updates are empty. Exactly one UNKNOWN_ERROR is appended, unless the error is crashing. |
| EvalTree.UpdatesShape | app/client/src/workers/Evaluation/handlers/evalTree.ts:243-274 | A new tree is one patch holding the whole tree, which becomes the previous state. A failed serialisation sends "[]". The diff order is de-duplicated unevaluated paths followed by the reported evaluation order. |
| EvalTree.ClearCacheRestartsFirstBuild | app/client/src/workers/Evaluation/handlers/evalTree.ts:309-315 | After `clearCache`, the next pass is a first build that sends a new tree. |
| FocusEntity.IdentifyEntityFromPath | app/client/src/navigation/FocusEntity.ts:146-201 | No match gives NONE with empty ids. An api id gives QUERY or API depending on the plugin. Then, in order: a non-temporary datasource id, selected tab, action id, collection id, widget ids. Otherwise the page canvas, always with the matched page id. |
| FocusEntity.FirstApplicableAt | app/client/src/navigation/FocusEntity.ts:149-201 | In an ordered rule list, the first rule whose parameter is truthy decides. Past the end, the canvas fallback decides. |
| FocusEntity.IdentifyIsFirstApplicableRule | app/client/src/navigation/FocusEntity.ts:149-201 | The classifier equals the precedence list apiId > datasourceId > selectedTab > actionId > collectionId > widgetIds with the canvas fallback. |
| FocusEntity.TempDatasourceFallsThrough | app/client/src/navigation/FocusEntity.ts:163-179 | The temporary datasource id is treated as no datasource id at all. |
| FocusEntity.IdentifyIDEEntityFromPath | app/client/src/navigation/FocusEntity.ts:204-278 | On an IDE page, UI navigation gives PROPERTY_PANE for a detail match, else PAGE. JS navigation gives JS_OBJECT, else PAGE. Queries navigation gives QUERY, else PAGE. Every other path gives NONE. |
| FocusEntity.ShouldStoreURLForFocus | app/client/src/navigation/FocusEntity.ts:58-70 | True iff the IDE entity is stored in the focus hierarchy, that is, iff it is PROPERTY_PANE, JS_OBJECT or QUERY. |
| FocusEntity.IDEFocusFollowsRouteDepth | app/client/src/navigation/FocusEntity.ts:204-278 | A URL is stored exactly when the route matched a detail path under the current tab, and then the entity carries the matched page. The entity is PAGE exactly on a known tab without a detail match, and NONE exactly off the known tabs. |
| FocusEntity.IsSameBranch | app/client/src/navigation/FocusEntity.ts:90-98 | Reflexive. |
| FocusEntity.IsSameBranchSymmetric | app/client/src/navigation/FocusEntity.ts:90-98 | Symmetric. |
| FocusEntity.IsSameBranchTransitive | app/client/src/navigation/FocusEntity.ts:90-98 | Transitive, so branch comparison is an equivalence. |
| ApiRightPane.AuthType | app/client/src/pages/Editor/APIEditor/ApiRightPane.tsx:142-146 | The displayed type is the upper-cased stored type ("" when it is missing). It is empty exactly when the stored type is, and upper-casing it again changes nothing. |
| ApiRightPane.Segments | app/client/src/pages/Editor/APIEditor/ApiRightPane.tsx:147-155 | At most three non-empty segments, one per present kind. Headers come first, query parameters next, the auth type last. |
| ApiRightPane.GetDatasourceInfo | app/client/src/pages/Editor/APIEditor/ApiRightPane.tsx:134-157 | A stored `null` throws exactly when one of the three reads meets it, with the auth type read first and headers before query parameters. Otherwise the summary is the segments joined by " \| ", "" without configuration. The header count leads, or the query count when there are no headers. The auth type ends the summary, or the query count when there is no auth type. |
| ApiRightPane.InfoEmptyIff | app/client/src/pages/Editor/APIEditor/ApiRightPane.tsx:134-157 | The summary is "" iff nothing read is `null` and there are no headers, no query parameters and no auth type. |
| ApiRightPane.CountSegmentPlural | app/client/src/pages/Editor/APIEditor/ApiRightPane.tsx:147-154 | The segment ends in an extra "S" iff the count exceeds one. |
| ApiRightPane.CountSegmentReadsBack | app/client/src/pages/Editor/APIEditor/ApiRightPane.tsx:147-148 | The segment starts with a decimal that reads back as the exact count. |
| ApiRightPane.CountSegmentInjective | app/client/src/pages/Editor/APIEditor/ApiRightPane.tsx:147-154 | Different counts give different segments. |
| ApiRightPane.InfoLength | app/client/src/pages/Editor/APIEditor/ApiRightPane.tsx:134-157 | The summary is as long as its segments plus one " \| " between each pair, so it holds at most two separators. |
| ApiRightPane.InfoOneSegment | app/client/src/pages/Editor/APIEditor/ApiRightPane.tsx:134-157 | With one kind present, the summary is that segment alone. |
| ApiRightPane.InfoTwoSegments | app/client/src/pages/Editor/APIEditor/ApiRightPane.tsx:134-157 | With two kinds present, the summary is the two segments with one " \| " between them. |
| ApiRightPane.InfoAllThree | app/client/src/pages/Editor/APIEditor/ApiRightPane.tsx:134-156 | With all three kinds present (so nothing read is `null`), the summary is the header, query-parameter and auth segments joined by " \| ". |
| AutoLayout.Clamp | app/client/src/sagas/AutoLayoutUpdateSagas.tsx:183-206 | A value below a truthy minimum becomes that minimum, unless the limits cross. A value above a truthy maximum becomes that maximum. A value within its limits is unchanged. When the limits cross, the maximum wins. |
| AutoLayout.ClampIdempotent | app/client/src/sagas/AutoLayoutUpdateSagas.tsx:183-206 | Clamping twice with consistent limits equals clamping once. |
| AutoLayout.AddToBatch | app/client/src/sagas/AutoLayoutUpdateSagas.tsx:155-166 | Keys stay unique. Overwriting keeps a key's creation position; a new key is appended. |
| AutoLayout.AddToBatchLookup | app/client/src/sagas/AutoLayoutUpdateSagas.tsx:160-166 | The written widget reads back the written size, and every other widget reads back what it had. |
| AutoLayout.LastWriteWins | app/client/src/sagas/AutoLayoutUpdateSagas.tsx:160-166 | Two writes for one widget equal the later write alone. |
| AutoLayout.ForInOrder | app/client/src/sagas/AutoLayoutUpdateSagas.tsx:229 | The order `for...in` visits the batch: a permutation of it, with array-index keys first in ascending numeric order and the other keys in creation order. Distinct keys stay distinct. |
| AutoLayout.UpdateWidgetDimensions | app/client/src/sagas/AutoLayoutUpdateSagas.tsx:168-213 | The widget's batched size is its clamped size and other widgets are unchanged. Processing is dispatched iff no drag or resize is in progress. |
| AutoLayout.Resized | app/client/src/sagas/AutoLayoutUpdateSagas.tsx:244-256 | Top row, left column, parent and detachment stay, and the height in pixels (row span times row space: 1 when detached, else the grid row height) becomes the requested height. |
| AutoLayout.ResizedWidth | app/client/src/sagas/AutoLayoutUpdateSagas.tsx:237-254 | The new column span times the parent's column space is the requested width. |
| AutoLayout.RowSpaceConversions | app/client/src/sagas/AutoLayoutUpdateSagas.tsx:245-253 | The per-case height conversions are division and multiplication by the row space. |
| AutoLayout.ApplyBatch | app/client/src/sagas/AutoLayoutUpdateSagas.tsx:225-257 | No widget appears or disappears. The non-empty parent id of every applied entry is collected. Only non-empty ids are added, and a list with no repeats stays without repeats, as in a `Set`. |
| AutoLayout.ApplyBatchLeavesOthers | app/client/src/sagas/AutoLayoutUpdateSagas.tsx:229-236 | A widget no applicable batch entry names is untouched, which covers missing widgets and widgets without a parent id. |
| AutoLayout.ApplyBatchResizes | app/client/src/sagas/AutoLayoutUpdateSagas.tsx:229-257 | An applied entry resizes the original widget: top row, left column, parent and detachment are kept, and its height in pixels is the batched height. |
| AutoLayout.ChangedFields | app/client/src/sagas/AutoLayoutUpdateSagas.tsx:276-292 | Exactly the position fields whose values differ are listed, with their new values. |
| AutoLayout.PositionDiff | app/client/src/sagas/AutoLayoutUpdateSagas.tsx:269-301 | A widget is in the update map iff one of its four position fields changed, and its entry is exactly its changed fields. |
| AutoLayout.DiffRestoresPositions | app/client/src/sagas/AutoLayoutUpdateSagas.tsx:276-301 | Applying the reported changes to the old positions gives the new ones. |
| AutoLayout.DiffOfUnchangedIsEmpty | app/client/src/sagas/AutoLayoutUpdateSagas.tsx:276-301 | Unchanged widgets give an empty update map. |
| AutoLayout.ProcessDimensionUpdates | app/client/src/sagas/AutoLayoutUpdateSagas.tsx:220-312 | It throws, keeping the batch, exactly when repositioning produced a widget not in the old state. Otherwise the batch is emptied, nothing is dispatched iff no widget's position moved, and what is dispatched is exactly the changed-fields diff of the batch applied in `for...in` order and then repositioned. |
| AutoLayout.ProcessReportsResizedWidgets | app/client/src/sagas/AutoLayoutUpdateSagas.tsx:220-312 | With a repositioning that moves nothing, an applicable entry's widget is dispatched with a bottom row iff its batched height differs from its current height in pixels. |
| AutoLayout.OnlyBatchedWidgetsReported | app/client/src/sagas/AutoLayoutUpdateSagas.tsx:220-312 | With a repositioning that moves nothing, every dispatched widget is named by an applicable batch entry, and its top row and left column are never dispatched. |
| AutoLayout.DispatchedIffResized | app/client/src/sagas/AutoLayoutUpdateSagas.tsx:220-312 | With a repositioning that moves nothing, a widget is dispatched iff an applicable batch entry names it and its resize changes its height in pixels or its right column. |
| AutoLayout.DiffIffResized | app/client/src/sagas/AutoLayoutUpdateSagas.tsx:229-301 | For the batch applied in any order, a widget is in the changed-fields diff iff an entry naming it is applied and its resize changes its height in pixels or its right column. |
| AutoLayout.ProcessSucceeds | app/client/src/sagas/AutoLayoutUpdateSagas.tsx:276-281 | A repositioning that keeps the set of widgets never makes the diff read a missing old widget, so processing does not throw. |
| AutoLayout.ProcessWithoutMoves | app/client/src/sagas/AutoLayoutUpdateSagas.tsx:258-311 | With a repositioning that moves nothing, the dispatched update is the diff of the applied batch alone, and none when that diff is empty. |
| AutoLayout.UpdateLayoutPositioning | app/client/src/sagas/AutoLayoutUpdateSagas.tsx:85-123 | No effect iff the type is unchanged. A switch to AUTO converts the layout, recalculates columns, then updates the application's layout type. A switch to FIXED saves the converted layout, then updates the layout type. |
| ColumnDropdown.PrepareColumns | app/client/src/components/editorComponents/WidgetQueryGeneratorForm/WidgetSpecificControls/ColumnDropdown/useColumns.tsx:101-120 | "number" iff a listed numeric type, "date" iff a listed date type, "array" iff "Array"; "string" otherwise. |
| ColumnDropdown.PrimaryColumn | app/client/src/components/editorComponents/WidgetQueryGeneratorForm/WidgetSpecificControls/ColumnDropdown/useColumns.tsx:41-48 | A stored primary column is kept. MongoDB without one gets "_id". |
| ColumnDropdown.Options | app/client/src/components/editorComponents/WidgetQueryGeneratorForm/WidgetSpecificControls/ColumnDropdown/useColumns.tsx:54-99 | Sheet columns give one option each, in order, keyed and labelled by the column. No columns means no options. With searching off, option i is column i's. With searching on, exactly the columns with an allowed lower-cased type are offered. Either way the options keep their columns' order. |
| ColumnDropdown.ColumnListOf | app/client/src/components/editorComponents/WidgetQueryGeneratorForm/WidgetSpecificControls/ColumnDropdown/useColumns.tsx:122-161 | Sheet columns are strings and selected. A database column is selected per the primary/exclusion rule or its own flag. The configured selection overrides the computed list. |
| ColumnDropdown.UseColumns | app/client/src/components/editorComponents/WidgetQueryGeneratorForm/WidgetSpecificControls/ColumnDropdown/useColumns.tsx:204-224 | Shown iff a table is set and (not Google Sheets or a sheet is set). Columns, options and primary column are the column list's, the dropdown's and the primary-column rule's. The selected columns are the listed columns flagged as selected, in their order and with every copy. |
| ColumnDropdown.SheetsSelectAll | app/client/src/components/editorComponents/WidgetQueryGeneratorForm/WidgetSpecificControls/ColumnDropdown/useColumns.tsx:122-137 | Without a configured selection, every sheet column is selected. |
| ColumnDropdown.ExcludedPrimaryNotSelected | app/client/src/components/editorComponents/WidgetQueryGeneratorForm/WidgetSpecificControls/ColumnDropdown/useColumns.tsx:139-154 | An excluded primary column is never among the selected columns. |
| UserWorkspace.IsLastAdminRoleEntity | app/server/appsmith-server/src/main/java/com/appsmith/server/services/UserWorkspaceServiceImpl.java:193-197 | True iff the role name starts with the administrator prefix and it has exactly one assignee (one user or one group). |
| UserWorkspace.RoleToUnassign | app/server/appsmith-server/src/main/java/com/appsmith/server/services/UserWorkspaceServiceImpl.java:74-97 | Succeeds only for exactly one current role that is not the last administrator role. The errors, in order: NO_RESOURCE_FOUND for a missing workspace, then for a missing user group; ACTION_IS_NOT_AUTHORIZED for no current role; the `single()` error for several; REMOVE_LAST_WORKSPACE_ADMIN for the last administrator role. |
| UserWorkspace.UpdatePermissionGroupForMember | app/server/appsmith-server/src/main/java/com/appsmith/server/services/UserWorkspaceServiceImpl.java:67-132 | Neither username nor group id gives INVALID_PARAMETER. A username always delegates. An unassignable new role is refused before anything else. Removing the last admin is refused with no change. A success first unassigns the single current role. With no new id it only unassigns and returns no roles. Otherwise it also assigns the new role and returns exactly that role. Once the new role is found, the change succeeds exactly when `RoleToUnassign` does, and otherwise fails with its error. |
| UserWorkspace.UpdateLeavesRequestedRole | app/server/appsmith-server/src/main/java/com/appsmith/server/services/UserWorkspaceServiceImpl.java:99-131 | After a successful change, a group that held only its current role holds exactly the requested role, or no role when no new id was given. |
| UserWorkspace.GroupRows | app/server/appsmith-server/src/main/java/com/appsmith/server/services/UserWorkspaceServiceImpl.java:182-187 | One row per assigned group, in order. |
| UserWorkspace.MapPermissionGroupListToUserGroups | app/server/appsmith-server/src/main/java/com/appsmith/server/services/UserWorkspaceServiceImpl.java:177-190 | As many rows as (role, group) pairs. Each row has a group id and exactly one role of entity type "Workspace". |
| UserWorkspace.FlattenedRowAt | app/server/appsmith-server/src/main/java/com/appsmith/server/services/UserWorkspaceServiceImpl.java:177-190 | The row for role k's j-th group sits at offset(k)+j, holding that group and that role. |
| UserWorkspace.FlattenedRowSource | app/server/appsmith-server/src/main/java/com/appsmith/server/services/UserWorkspaceServiceImpl.java:177-190 | Every flattened row comes from some (role, assigned group) pair. |
| UserWorkspace.NameGroupRows | app/server/appsmith-server/src/main/java/com/appsmith/server/services/UserWorkspaceServiceImpl.java:152-163 | Fails iff some row's group is missing. Otherwise each row gets its group's name as name and username. |
| UserWorkspace.GetWorkspaceMembers | app/server/appsmith-server/src/main/java/com/appsmith/server/services/UserWorkspaceServiceImpl.java:134-173 | The member list has one row per (role, group) pair plus one per user row, and contains every user row. |
| UserWorkspace.MembersFailIffGroupMissing | app/server/appsmith-server/src/main/java/com/appsmith/server/services/UserWorkspaceServiceImpl.java:144-163 | Listing fails iff some role is assigned to a group the repository did not return. |
| UserWorkspace.MembersListEveryAssignment | app/server/appsmith-server/src/main/java/com/appsmith/server/services/UserWorkspaceServiceImpl.java:152-172 | Every (role, group) pair appears in the list, named after its group. |
| UserWorkspace.MembersSorted | app/server/appsmith-server/src/main/java/com/appsmith/server/services/UserWorkspaceServiceImpl.java:165-172 | With a total-preorder comparator the merged list is ordered. |
| InsertionSort.Sort | app/server/appsmith-server/src/main/java/com/appsmith/server/services/UserWorkspaceServiceImpl.java:169-172 | The sorted list is a permutation of the input. |
| InsertionSort.SortSorted | app/server/appsmith-server/src/main/java/com/appsmith/server/services/UserWorkspaceServiceImpl.java:169-172 | For a total preorder the sorted list is ordered. |
| InsertionSort.SortKeepsElement | app/server/appsmith-server/src/main/java/com/appsmith/server/services/UserWorkspaceServiceImpl.java:169-172 | Every element of the input is in the sorted list. |
| CustomUserRepository.SystemGeneratedUserEmails | app/server/appsmith-server/src/main/java/com/appsmith/server/repositories/CustomUserRepositoryImpl.java:45-50 | The inherited system emails and the provisioning user, and nothing else. |
| CustomUserRepository.GetFirst | app/server/appsmith-server/src/main/java/com/appsmith/server/repositories/CustomUserRepositoryImpl.java:132-133 | The first value of the filter, absent for a missing key or an empty value list. |
| CustomUserRepository.ProvisionedFlag | app/server/appsmith-server/src/main/java/com/appsmith/server/repositories/CustomUserRepositoryImpl.java:133-138 | true iff the value equals "true" ignoring case; false iff it equals "false" ignoring case. |
| CustomUserRepository.LowerEqualsLiteral | app/server/appsmith-server/src/main/java/com/appsmith/server/repositories/CustomUserRepositoryImpl.java:133-136 | Lower-casing and comparing with a lower-case literal is a case-blind comparison. |
| CustomUserRepository.CriteriaFromFilters | app/server/appsmith-server/src/main/java/com/appsmith/server/repositories/CustomUserRepositoryImpl.java:130-141 | At most one criterion, and none for a missing or empty filter. A provisioned criterion with flag b exists iff the filter equals "true"/"false" ignoring case. |
| CustomUserRepository.AllUserObjectsQuery | app/server/appsmith-server/src/main/java/com/appsmith/server/repositories/CustomUserRepositoryImpl.java:60-71 | The tenant criterion comes first, then the filter criteria. Email, provisioned flag and policies are the included fields. |
| CustomUserRepository.AllUserObjectsSelects | app/server/appsmith-server/src/main/java/com/appsmith/server/repositories/CustomUserRepositoryImpl.java:63-69 | A user is selected iff it belongs to the tenant and, when the filter names a flag, its provisioned flag equals it. |
| CustomUserRepository.PaginatedCriteria | app/server/appsmith-server/src/main/java/com/appsmith/server/repositories/CustomUserRepositoryImpl.java:79-81 | The case-insensitive email pattern is present iff there are emails to look for. |
| CustomUserRepository.UsersWithParamsPaginated | app/server/appsmith-server/src/main/java/com/appsmith/server/repositories/CustomUserRepositoryImpl.java:73-89 | The page count is the size of the returned list and the start index is echoed. Page and total come from the same criteria. |
| CustomUserRepository.PageWithinTotal | app/server/appsmith-server/src/main/java/com/appsmith/server/repositories/CustomUserRepositoryImpl.java:73-89 | Over a store whose pages obey the criteria and the size, the page count never exceeds the total or the requested count, and with email filters every listed user matches the case-insensitive email pattern. |
| CustomUserRepository.NoEmailFilterMatchesAll | app/server/appsmith-server/src/main/java/com/appsmith/server/repositories/CustomUserRepositoryImpl.java:76-82 | Without email filters every user passes the paginated criteria. |
| CustomUserRepository.ModifiedCountPositive | app/server/appsmith-server/src/main/java/com/appsmith/server/repositories/CustomUserRepositoryImpl.java:154 | The modified count is positive iff some user actually changed. |
| CustomUserRepository.MakeUserPristine | app/server/appsmith-server/src/main/java/com/appsmith/server/repositories/CustomUserRepositoryImpl.java:143-155 | The tenant's users of that login source become form users and disabled; every other user is untouched. The answer is true iff some user changed. |
| CustomUserRepository.PristineReportsMatchedUsers | app/server/appsmith-server/src/main/java/com/appsmith/server/repositories/CustomUserRepositoryImpl.java:143-155 | For a source other than form login, the answer is whether the tenant had any user of that source. |

## Left out

- Telemetry (`profileFn`, span data), the replay canvas and its logs, `errorModifier.init`, console output, and the transmission error handler of `evalTree.ts`: these are I/O and global plumbing. Replay logs are never appended to the reported logs in this model.
- `clearCache` also clears intervals, the JS-object collection and the data store. Those stores are outside the model; only the evaluator reset is kept.
- `DataTreeEvaluator` internals, `serialiseToBigInt`, `generateOptimisedUpdatesAndSetPrevState`, `uniqueOrderUpdatePaths`, `getSafeToRenderDataTree`, `makeEntityConfigsAsObjProperties` and `getJSVariableCreatedEvents` are not part of this model; they are `Engine` fields.
- EvalTree.Engine: the evaluator constructor, the entity-config helper and the sanitiser are taken not to throw. Only the four evaluator methods and the serialiser can throw, so the catch block always has an evaluator to read.
- EvalTree.IncrementalAttempt: the `JSON.parse(JSON.stringify(...))` copy of the meta updates is the identity on plain data and is not modelled.
- The old evaluator's validation-config setter in the full-rebuild branch is not modelled: that evaluator is discarded immediately.
- React hooks, selectors, icons, the `selected` option lookup, `onSelect`/`onClear`, analytics and the `error` and `disabled` fields of `useColumns.tsx`: UI plumbing.
- ColumnDropdown.Options: the search filter lower-cases ASCII letters only. JavaScript's `toLowerCase` is Unicode-aware, so a column type with other upper-case letters may be judged differently.
- The `ALLOWED_SEARCH_DATATYPE` list is not part of this model; it is a parameter of `ColumnDropdown.Options`.
- Route matching with `matchPath` and query-string parsing with `getQueryParamsFromString` are foreign code. Their outcomes are optional parameter records and a branch-extractor parameter. `TEMP_DATASOURCE_ID` is taken as "temp-id-0".
- `updateWidgetPositions`, `getCanvasDimensions` and `getWidgetMinMaxDimensionsInPixel` are unseen. Repositioning and column space are parameters; the limits are an input.
- `GridDefaults.DEFAULT_GRID_ROW_HEIGHT` is taken as 10.
- The DSL conversions behind the layout switch are effects. `UpdateLayoutPositioning` lists them as named effects.
- AutoLayout.UpdateLayoutPositioning: the catch that puts WIDGET_OPERATION_ERROR when a conversion throws is not modelled. The conversions are named effects that cannot fail.
- AutoLayout.TruthyNum: positions and limits are exact reals. IEEE rounding and NaN are not modelled.
- AutoLayout.Geometry: the column space is assumed positive, so a zero-width canvas (a division by zero in the source) is not modelled.
- AutoLayout.ProcessReportsResizedWidgets: proved only for a repositioning that moves nothing. `updateWidgetPositions` is a parameter, so after real repositioning the dispatched update is described only by `ProcessDimensionUpdates` (the diff of the repositioned widgets).
- AutoLayout.OnlyBatchedWidgetsReported: proved only for a repositioning that moves nothing, for the same reason.
- AutoLayout.DispatchedIffResized: proved only for a repositioning that moves nothing, for the same reason.
- AutoLayout.ResizedWidth: the right column is stated for one resize. The column space comes from the partly updated widgets, so whether a resize changes the right column is left as the applied right column, not as a condition on the batched width.
- AutoLayout.ForInOrder: the batch is an ordered list of distinct keys. Integer-like keys up to 2^32 - 2 are visited first in numeric order, as for plain JavaScript objects; symbols and inherited keys do not occur.
- AutoLayout.ProcessDimensionUpdates: a widget that appears only after repositioning is modelled as a throw that keeps the batch. It is not modelled as the source's exact TypeError.
- ApiRightPane.DatasourceConfiguration: a missing and a `null` intermediate object are one `None`, since `get` falls back to its default for both. Headers or query parameters that are neither an array nor `null` (a string, say) are not modelled.
- Basics.ToUpper: case mapping covers ASCII letters only; the authentication-type upper-casing of non-ASCII letters is not modelled.
- CustomUserRepository.ProvisionedFlag: lower-casing covers ASCII letters only. Java's `toLowerCase` maps no other character to a letter of "true" or "false", so the outcome is the same.
- Mongo criteria are read as plain equality and pattern tests on an in-memory user list. Paging, sorting, counting and the regex engine are parameters.
- CustomUserRepository.PageWithinTotal: holds for a store satisfying `SoundStore` (pages obey the criteria and the size, and never outgrow the count). The paged query and the count are parameters, so this is an assumption about them.
- `getAllUserEmail`, `getUserEmailsByIdsAndTenantId`, `countAllUsersByIsProvisioned`, `updateUserPoliciesAndIsProvisionedWithoutPermission` and `getAllUsersByIsProvisioned` each pass a fixed criterion to the store. They hold no decision logic and are not modelled.
- Reactor sequencing, permission checks inside repository calls, and the superclass paths of `UserWorkspaceServiceImpl` (the username branch and the user rows) are not modelled. They are represented by a `Directory` answer value, a `DelegatedToUserPath` outcome and a user-row parameter.
- UserWorkspace.UpdatePermissionGroupForMember: when the new role is missing, the answer is always ACTION_IS_NOT_AUTHORIZED. The source zips the new-role chain with the user-group lookup, so when the user group is missing too, whichever lookup fails first decides the error.
- UserWorkspace.RoleToUnassign: when both the workspace and the user group are missing, the workspace error is reported. That is the subscription order of `Mono.zip`; the source does not guarantee it.
- UserWorkspace.GetWorkspaceMembers: the member comparator is a parameter. The list is proved ordered only for a comparator that is a total preorder, via `MembersSorted`.
- UserWorkspace.PermissionGroup: a role's assigned group ids are a sequence listing the set in iteration order, taken to be duplicate-free.

=== FILE: api_right_pane.dfy ===
/** The one-line datasource summary shown on a datasource card of the API
    editor's right pane (`getDatasourceInfo`): header count, query-parameter
    count and authentication type, separated by " | ". */
module ApiRightPane {
  import opened Basics

  /** A header or query-parameter entry; only the number of entries matters. */
  datatype KeyValue = KeyValue(key: string, value: string)

  /** A JavaScript property that is missing, holds `null`, or holds a value.
      lodash `get` substitutes its default only for a missing value, so a
      stored `null` reaches the code that reads the result. */
  datatype Prop<T> = Missing | Null | Present(value: T)

  datatype Authentication = Authentication(authenticationType: Prop<string>)

  /** An intermediate object that is missing or `null` makes `get` fall back
      to its default, so those two cases are one `None` here. */
  datatype DatasourceConfiguration = DatasourceConfiguration(
    headers: Prop<seq<KeyValue>>,
    queryParameters: Prop<seq<KeyValue>>,
    authentication: Option<Authentication>)

  datatype Datasource = Datasource(datasourceConfiguration: Option<DatasourceConfiguration>)

  const Separator: string := " | "

  // ---------------------------------------------------------------------
  // What the three `get` calls see

  /** The property `get(datasource, "datasourceConfiguration.headers", [])` reaches. */
  function HeadersProp(ds: Datasource): Prop<seq<KeyValue>> {
    if ds.datasourceConfiguration.None? then Missing else ds.datasourceConfiguration.value.headers
  }

  function QueryParametersProp(ds: Datasource): Prop<seq<KeyValue>> {
    if ds.datasourceConfiguration.None? then Missing
    else ds.datasourceConfiguration.value.queryParameters
  }

  /** The property `get(datasource, "...authentication.authenticationType", "")` reaches. */
  function AuthTypeProp(ds: Datasource): Prop<string> {
    if ds.datasourceConfiguration.None? then Missing
    else match ds.datasourceConfiguration.value.authentication
      case None => Missing
      case Some(auth) => auth.authenticationType
  }

  /** The header list as read, with `[]` for a missing one. */
  function Headers(ds: Datasource): seq<KeyValue> {
    match HeadersProp(ds)
    case Present(h) => h
    case _ => []
  }

  function QueryParameters(ds: Datasource): seq<KeyValue> {
    match QueryParametersProp(ds)
    case Present(q) => q
    case _ => []
  }

  /** The stored authentication type, with "" for a missing one. */
  function RawAuthType(ds: Datasource): string {
    match AuthTypeProp(ds)
    case Present(a) => a
    case _ => ""
  }

  /** The authentication type as displayed: upper-cased, "" when there is none. */
  function AuthType(ds: Datasource): (a: string)
    ensures a == ToUpper(RawAuthType(ds))
    ensures a == "" <==> RawAuthType(ds) == ""
    ensures ToUpper(a) == a
    ensures ds.datasourceConfiguration.None? ==> a == ""
  {
    ToUpperIdempotent(RawAuthType(ds));
    ToUpper(RawAuthType(ds))
  }

  // ---------------------------------------------------------------------
  // The summary

  /** "<n> <noun>" with "S" appended when there is more than one. */
  function CountSegment(n: nat, noun: string): string
    requires n > 0
  {
    NatToString(n) + " " + noun + (if n > 1 then "S" else "")
  }

  /** The segments that make up the summary, in display order. */
  function Segments(ds: Datasource): (segs: seq<string>)
    ensures |segs| <= 3
    ensures forall i :: 0 <= i < |segs| ==> segs[i] != ""
    ensures |segs| == (if |Headers(ds)| > 0 then 1 else 0)
                    + (if |QueryParameters(ds)| > 0 then 1 else 0)
                    + (if AuthType(ds) != "" then 1 else 0)
    // headers come first whenever there are any
    ensures |Headers(ds)| > 0 ==> segs[0] == CountSegment(|Headers(ds)|, "HEADER")
    // query parameters come right after the header segment, if any
    ensures |QueryParameters(ds)| > 0 ==>
      var k := if |Headers(ds)| > 0 then 1 else 0;
      segs[k] == CountSegment(|QueryParameters(ds)|, "QUERY PARAMETER")
    // the authentication type is always last
    ensures AuthType(ds) != "" ==> segs[|segs| - 1] == AuthType(ds)
  {
    var h := |Headers(ds)|;
    var q := |QueryParameters(ds)|;
    var a := AuthType(ds);
    (if h > 0 then [CountSegment(h, "HEADER")] else [])
    + (if q > 0 then [CountSegment(q, "QUERY PARAMETER")] else [])
    + (if a != "" then [a] else [])
  }

  /** The TypeError the summary throws on a stored `null`: `toUpperCase` of a
      null authentication type, or `length` of a null list. */
  datatype NullRead = NullAuthenticationType | NullHeaders | NullQueryParameters

  predicate ReadsNull(ds: Datasource) {
    AuthTypeProp(ds).Null? || HeadersProp(ds).Null? || QueryParametersProp(ds).Null?
  }

  /** `getDatasourceInfo`: the summary, or the TypeError it throws. The
      authentication type is upper-cased before either length is read, and
      the header length is read before the query-parameter length. */
  function GetDatasourceInfo(ds: Datasource): (r: Result<string, NullRead>)
    ensures r.Err? <==> ReadsNull(ds)
    ensures AuthTypeProp(ds).Null? ==> r == Err(NullAuthenticationType)
    ensures !AuthTypeProp(ds).Null? && HeadersProp(ds).Null? ==> r == Err(NullHeaders)
    ensures !AuthTypeProp(ds).Null? && !HeadersProp(ds).Null? && QueryParametersProp(ds).Null? ==>
      r == Err(NullQueryParameters)
    ensures ds.datasourceConfiguration.None? ==> r == Ok("")
    // the header count leads whenever there are headers
    ensures r.Ok? && |Headers(ds)| > 0 ==> CountSegment(|Headers(ds)|, "HEADER") <= r.value
    ensures r.Ok? && |Headers(ds)| == 0 && |QueryParameters(ds)| > 0 ==>
      CountSegment(|QueryParameters(ds)|, "QUERY PARAMETER") <= r.value
    // the authentication type closes the summary whenever there is one
    ensures r.Ok? && AuthType(ds) != "" ==> EndsWith(r.value, AuthType(ds))
    ensures r.Ok? && AuthType(ds) == "" && |QueryParameters(ds)| > 0 ==>
      EndsWith(r.value, CountSegment(|QueryParameters(ds)|, "QUERY PARAMETER"))
    // the summary is exactly the segments joined by " | "
    ensures r.Ok? ==> r.value == Join(Segments(ds), Separator)
  {
    if AuthTypeProp(ds).Null? then Err(NullAuthenticationType)
    else if HeadersProp(ds).Null? then Err(NullHeaders)
    else if QueryParametersProp(ds).Null? then Err(NullQueryParameters)
    else
      var segs := Segments(ds);
      JoinEndsWithLast(segs, Separator);
      Ok(Join(segs, Separator))
  }

  /** The summary is empty exactly when nothing is null and there are no
      headers, no query parameters and no authentication type. */
  lemma InfoEmptyIff(ds: Datasource)
    ensures GetDatasourceInfo(ds) == Ok("") <==>
      (!ReadsNull(ds) && |Headers(ds)| == 0 && |QueryParameters(ds)| == 0 && AuthType(ds) == "")
  {
    var segs := Segments(ds);
    JoinEmpty(segs, Separator);
    if |segs| == 1 { assert segs[0] != ""; }
  }

  /** The pluralisation rule: the "S" is there iff the count exceeds one. */
  lemma CountSegmentPlural(n: nat, noun: string)
    requires n > 0
    ensures var s := CountSegment(n, noun);
      (s[|s| - 1] == 'S' && s[..|s| - 1] == NatToString(n) + " " + noun) <==> n > 1
  {
    var s := CountSegment(n, noun);
    if n == 1 {
      assert s == NatToString(n) + " " + noun;
      if noun == [] {
        assert s[|s| - 1] == ' ';
      } else {
        assert |s[..|s| - 1]| < |NatToString(n) + " " + noun|;
      }
    }
  }

  /** The count in a segment reads back as the exact number of entries. */
  lemma CountSegmentReadsBack(n: nat, noun: string)
    requires n > 0
    ensures var d := NatToString(n);
      CountSegment(n, noun)[..|d|] == d && ParseDecimal(d) == n
  {
    ParseNatToString(n);
  }

  /** Different counts give different segments. */
  lemma CountSegmentInjective(m: nat, n: nat, noun: string)
    requires m > 0 && n > 0 && CountSegment(m, noun) == CountSegment(n, noun)
    ensures m == n
  {
    var dm := NatToString(m);
    var dn := NatToString(n);
    var s := CountSegment(m, noun);
    assert s[..|dm|] == dm && s[|dm|] == ' ';
    assert s[..|dn|] == dn && s[|dn|] == ' ';
    NatToStringInjective(m, n);
  }

  /** The summary's length: its segments plus one separator between each
      pair, so at most two separators. */
  lemma InfoLength(ds: Datasource)
    requires !ReadsNull(ds) && Segments(ds) != []
    ensures GetDatasourceInfo(ds).Ok?
    ensures |GetDatasourceInfo(ds).value|
      == SumLengths(Segments(ds)) + (|Segments(ds)| - 1) * |Separator|
    ensures |GetDatasourceInfo(ds).value| <= SumLengths(Segments(ds)) + 2 * |Separator|
  {
    JoinLength(Segments(ds), Separator);
  }

  /** A summary of one segment is that segment alone. */
  lemma InfoOneSegment(ds: Datasource)
    requires !ReadsNull(ds) && |Segments(ds)| == 1
    ensures GetDatasourceInfo(ds) == Ok(Segments(ds)[0])
  {
  }

  /** A summary of two segments is the two joined by one separator. */
  lemma InfoTwoSegments(ds: Datasource)
    requires !ReadsNull(ds) && |Segments(ds)| == 2
    ensures GetDatasourceInfo(ds) == Ok(Segments(ds)[0] + Separator + Segments(ds)[1])
  {
    var segs := Segments(ds);
    assert segs[1..] == [segs[1]];
  }

  /** The full summary of a datasource with three kinds of entries. */
  lemma InfoAllThree(ds: Datasource)
    requires |Headers(ds)| > 0 && |QueryParameters(ds)| > 0 && AuthType(ds) != ""
    ensures GetDatasourceInfo(ds) == Ok(
      CountSegment(|Headers(ds)|, "HEADER") + Separator
      + CountSegment(|QueryParameters(ds)|, "QUERY PARAMETER") + Separator
      + AuthType(ds))
  {
    var h := CountSegment(|Headers(ds)|, "HEADER");
    var q := CountSegment(|QueryParameters(ds)|, "QUERY PARAMETER");
    var a := AuthType(ds);
    assert RawAuthType(ds) != "";
    assert !ReadsNull(ds);
    assert Segments(ds) == [h, q, a];
    assert [h, q, a][1..] == [q, a];
    assert Join([q, a], Separator) == q + Separator + a by {
      assert [q, a][1..] == [a];
    }
    assert Join([h, q, a], Separator) == h + Separator + Join([q, a], Separator);
    assert GetDatasourceInfo(ds) == Ok(Join([h, q, a], Separator));
    assert h + Separator + (q + Separator + a) == h + Separator + q + Separator + a;
  }
}

=== FILE: auto_layout.dfy ===
/** Widget dimension updates in auto-layout (`AutoLayoutUpdateSagas.tsx`):
    clamping a reported size to the widget's limits, collecting sizes in a
    per-widget batch, turning the batch into new bottom rows and right
    columns, and reporting only the position fields that changed.
    Redux-saga effects become returned values; canvas geometry and the
    repositioning of siblings are parameters. Positions are `real`. */
module AutoLayout {
  import opened Basics
  import opened InsertionSort

  // ---------------------------------------------------------------------
  // Clamping (updateWidgetDimensionsSaga)

  /** Pixel limits of a widget; a missing or zero limit does not apply. */
  datatype MinMax = MinMax(
    minHeight: Option<real>, maxHeight: Option<real>,
    minWidth: Option<real>, maxWidth: Option<real>)

  /** JavaScript truthiness of an optional number (NaN is not modelled). */
  predicate TruthyNum(o: Option<real>) {
    o.Some? && o.value != 0.0
  }

  /** Raise to `lo` when below it, then lower to `hi` when above it. */
  function Clamp(v: real, lo: Option<real>, hi: Option<real>): (r: real)
    ensures TruthyNum(hi) ==> r <= hi.value
    ensures TruthyNum(lo) && (!TruthyNum(hi) || lo.value <= hi.value) ==> r >= lo.value
    ensures r == v || (TruthyNum(lo) && r == lo.value) || (TruthyNum(hi) && r == hi.value)
    // a value already within the limits that apply is left alone
    ensures (!TruthyNum(lo) || lo.value <= v) && (!TruthyNum(hi) || v <= hi.value) ==> r == v
    // the upper limit wins when the limits cross
    ensures TruthyNum(lo) && TruthyNum(hi) && hi.value < lo.value && v < lo.value ==> r == hi.value
    // a value below a minimum that applies is raised to it, unless the limits cross
    ensures TruthyNum(lo) && v < lo.value && (!TruthyNum(hi) || lo.value <= hi.value) ==> r == lo.value
    // a value above a maximum that applies is lowered to it
    ensures TruthyNum(hi) && v > hi.value ==> r == hi.value
  {
    var v1 := if TruthyNum(lo) && v < lo.value then lo.value else v;
    if TruthyNum(hi) && v1 > hi.value then hi.value else v1
  }

  /** Clamping a clamped value again changes nothing. */
  lemma ClampIdempotent(v: real, lo: Option<real>, hi: Option<real>)
    requires !TruthyNum(lo) || !TruthyNum(hi) || lo.value <= hi.value
    ensures Clamp(Clamp(v, lo, hi), lo, hi) == Clamp(v, lo, hi)
  {
  }

  datatype Size = Size(width: real, height: real)

  // ---------------------------------------------------------------------
  // The dimension batch: a JavaScript object keyed by widget id, kept here as
  // its entries in key-creation order. Writing an existing key keeps its
  // creation position; a new key goes to the end. The order in which
  // `for…in` then visits the keys is `ForInOrder` below.

  datatype BatchEntry = BatchEntry(widgetId: string, size: Size)

  type Batch = seq<BatchEntry>

  predicate UniqueIds(b: Batch) {
    forall i, j :: 0 <= i < j < |b| ==> b[i].widgetId != b[j].widgetId
  }

  function Ids(b: Batch): set<string> {
    set i | 0 <= i < |b| :: b[i].widgetId
  }

  /** Where a key sits in the batch. */
  function IndexOf(b: Batch, id: string): (k: nat)
    requires id in Ids(b)
    ensures k < |b| && b[k].widgetId == id
    ensures forall i :: 0 <= i < k ==> b[i].widgetId != id
  {
    if b[0].widgetId == id then 0
    else
      assert id in Ids(b[1..]) by {
        var i :| 0 <= i < |b| && b[i].widgetId == id;
        assert b[1..][i - 1].widgetId == id;
      }
      1 + IndexOf(b[1..], id)
  }

  /** Reading a widget's size from the batch (`batch[widgetId]`). */
  function Lookup(b: Batch, id: string): (r: Option<Size>)
    ensures r.Some? <==> id in Ids(b)
    ensures r.Some? ==> r.value == b[IndexOf(b, id)].size
  {
    if id in Ids(b) then Some(b[IndexOf(b, id)].size) else None
  }

  lemma LookupUnique(b: Batch, i: nat)
    requires UniqueIds(b) && i < |b|
    ensures Lookup(b, b[i].widgetId) == Some(b[i].size)
  {
    assert b[i].widgetId in Ids(b);
  }

  /** `addWidgetToAutoLayoutDimensionUpdateBatch`. */
  function AddToBatch(b: Batch, id: string, size: Size): (r: Batch)
    requires UniqueIds(b)
    ensures UniqueIds(r)
    ensures Ids(r) == Ids(b) + {id}
    // overwriting keeps the key where it was; a new key is appended
    ensures id in Ids(b) ==>
      |r| == |b| && forall i :: 0 <= i < |b| ==> r[i].widgetId == b[i].widgetId
    ensures id !in Ids(b) ==> r == b + [BatchEntry(id, size)]
  {
    if id in Ids(b) then
      var r := b[IndexOf(b, id) := BatchEntry(id, size)];
      assert forall i :: 0 <= i < |b| ==> r[i].widgetId == b[i].widgetId;
      assert Ids(r) == Ids(b) by {
        forall x | x in Ids(b) ensures x in Ids(r) {
          var i :| 0 <= i < |b| && b[i].widgetId == x;
          assert r[i].widgetId == x;
        }
      }
      r
    else
      var r := b + [BatchEntry(id, size)];
      assert r[|b|].widgetId == id;
      assert Ids(r) == Ids(b) + {id} by {
        forall x | x in Ids(b) ensures x in Ids(r) {
          var i :| 0 <= i < |b| && b[i].widgetId == x;
          assert r[i].widgetId == x;
        }
      }
      r
  }

  /** After a write, the written widget reads back the written size and every
      other widget reads back what it had. */
  lemma AddToBatchLookup(b: Batch, id: string, size: Size)
    requires UniqueIds(b)
    ensures Lookup(AddToBatch(b, id, size), id) == Some(size)
    ensures forall other :: other != id ==> Lookup(AddToBatch(b, id, size), other) == Lookup(b, other)
  {
    var r := AddToBatch(b, id, size);
    var k := if id in Ids(b) then IndexOf(b, id) else |b|;
    assert r[k] == BatchEntry(id, size);
    LookupUnique(r, k);
    forall other | other != id
      ensures Lookup(r, other) == Lookup(b, other)
    {
      if other in Ids(b) {
        var j := IndexOf(b, other);
        assert r[j] == b[j];
        LookupUnique(r, j);
      }
    }
  }

  /** Last write wins: of two writes for the same widget the later one stays. */
  lemma LastWriteWins(b: Batch, id: string, first: Size, second: Size)
    requires UniqueIds(b)
    ensures AddToBatch(AddToBatch(b, id, first), id, second) == AddToBatch(b, id, second)
  {
    var b1 := AddToBatch(b, id, first);
    if id in Ids(b) {
      var k := IndexOf(b, id);
      assert b1 == b[k := BatchEntry(id, first)];
      assert IndexOf(b1, id) == k;
    } else {
      assert IndexOf(b1, id) == |b|;
    }
  }

  // ---------------------------------------------------------------------
  // Enumeration order of the batch (`for…in`)

  /** An ECMAScript array index: the canonical decimal form of a number below
      2^32 - 1. `for…in` visits such keys first, in ascending numeric order,
      and then the other keys in the order they were created. */
  predicate IsArrayIndex(key: string) {
    key != "" && AllDigits(key) && NatToString(ParseDecimal(key)) == key
    && ParseDecimal(key) < 0xFFFF_FFFF
  }

  predicate IsIndexEntry(e: BatchEntry) { IsArrayIndex(e.widgetId) }

  predicate IsNamedEntry(e: BatchEntry) { !IsIndexEntry(e) }

  function IndexValue(e: BatchEntry): nat {
    if IsArrayIndex(e.widgetId) then ParseDecimal(e.widgetId) else 0
  }

  function IndexLeq(x: BatchEntry, y: BatchEntry): bool {
    IndexValue(x) <= IndexValue(y)
  }

  function WidgetIdOf(e: BatchEntry): string { e.widgetId }

  /** The order in which `for (const widgetId in batch)` visits the entries. */
  function ForInOrder(b: Batch): (r: Batch)
    ensures multiset(r) == multiset(b)
    // array-index keys come first, in ascending numeric order
    ensures forall i, j :: 0 <= i < j < |r| && IsIndexEntry(r[j]) ==>
      IsIndexEntry(r[i]) && IndexLeq(r[i], r[j])
    // the other keys keep their creation order
    ensures Filter(r, IsNamedEntry) == Filter(b, IsNamedEntry)
    ensures UniqueIds(b) ==> UniqueIds(r)
  {
    var indexed := Filter(b, IsIndexEntry);
    var named := Filter(b, IsNamedEntry);
    var sorted := Sort(indexed, IndexLeq);
    ForInOrderIsPermutation(b);
    IndexEntriesFirst(sorted, named, indexed);
    NamedEntriesKeepOrder(sorted, named, b);
    ForInOrderKeepsIdsDistinct(b, sorted + named);
    sorted + named
  }

  /** Splitting the batch into array-index and other entries loses nothing. */
  lemma ForInOrderIsPermutation(b: Batch)
    ensures multiset(Sort(Filter(b, IsIndexEntry), IndexLeq) + Filter(b, IsNamedEntry)) == multiset(b)
  {
    FilterKeepsOrderAndCopies(b, IsIndexEntry);
    FilterKeepsOrderAndCopies(b, IsNamedEntry);
    var m := multiset(Sort(Filter(b, IsIndexEntry), IndexLeq) + Filter(b, IsNamedEntry));
    assert forall x :: m[x] == multiset(b)[x];
  }

  lemma IndexLeqIsTotalPreorder()
    ensures TotalPreorder(IndexLeq)
  {
  }

  /** The sorted array-index entries followed by the other entries. */
  lemma IndexEntriesFirst(sorted: Batch, named: Batch, indexed: Batch)
    requires forall x :: x in indexed ==> IsIndexEntry(x)
    requires forall x :: x in named ==> IsNamedEntry(x)
    requires sorted == Sort(indexed, IndexLeq)
    ensures var r := sorted + named;
      forall i, j :: 0 <= i < j < |r| && IsIndexEntry(r[j]) ==>
        IsIndexEntry(r[i]) && IndexLeq(r[i], r[j])
  {
    IndexLeqIsTotalPreorder();
    SortSorted(indexed, IndexLeq);
    assert forall x :: x in sorted ==> x in multiset(indexed);
    SortedBlockFirst(sorted, named, IsIndexEntry, IndexLeq);
  }

  /** Keys that are not array indexes are visited in creation order. */
  lemma NamedEntriesKeepOrder(sorted: Batch, named: Batch, b: Batch)
    requires named == Filter(b, IsNamedEntry)
    requires sorted == Sort(Filter(b, IsIndexEntry), IndexLeq)
    ensures Filter(sorted + named, IsNamedEntry) == named
  {
    assert forall x :: x in sorted ==> x in multiset(Filter(b, IsIndexEntry));
    FilterOfBlocks(sorted, named, IsNamedEntry);
  }

  lemma ForInOrderKeepsIdsDistinct(b: Batch, r: Batch)
    requires multiset(r) == multiset(b)
    ensures UniqueIds(b) ==> UniqueIds(r)
  {
    if UniqueIds(b) {
      assert forall i, j :: 0 <= i < j < |b| ==> WidgetIdOf(b[i]) != WidgetIdOf(b[j]);
      PermutationKeepsKeysDistinct(r, b, WidgetIdOf);
      assert forall i, j :: 0 <= i < j < |r| ==> WidgetIdOf(r[i]) != WidgetIdOf(r[j]);
    }
  }

  /** Every batch entry is visited at some step of the enumeration. */
  lemma VisitedAt(b: Batch, i: nat) returns (k: nat)
    requires i < |b|
    ensures k < |ForInOrder(b)| && ForInOrder(b)[k] == b[i]
  {
    assert b[i] in multiset(ForInOrder(b));
    k :| 0 <= k < |ForInOrder(b)| && ForInOrder(b)[k] == b[i];
  }

  /** What `updateWidgetDimensionsSaga` leaves behind. */
  datatype DimensionUpdate = DimensionUpdate(batch: Batch, dispatchProcessing: bool)

  function UpdateWidgetDimensions(b: Batch, widgetId: string, width: real, height: real,
                                  limits: MinMax, isDraggingOrResizing: bool): (r: DimensionUpdate)
    requires UniqueIds(b)
    ensures UniqueIds(r.batch)
    ensures Lookup(r.batch, widgetId) ==
      Some(Size(Clamp(width, limits.minWidth, limits.maxWidth),
                Clamp(height, limits.minHeight, limits.maxHeight)))
    ensures forall other :: other != widgetId ==> Lookup(r.batch, other) == Lookup(b, other)
    // processing is dispatched iff no drag or resize is in progress
    ensures r.dispatchProcessing <==> !isDraggingOrResizing
  {
    var h := Clamp(height, limits.minHeight, limits.maxHeight);
    var w := Clamp(width, limits.minWidth, limits.maxWidth);
    AddToBatchLookup(b, widgetId, Size(w, h));
    DimensionUpdate(AddToBatch(b, widgetId, Size(w, h)), !isDraggingOrResizing)
  }

  // ---------------------------------------------------------------------
  // Processing the batch (processAutoLayoutDimensionUpdatesSaga)

  datatype Widget = Widget(
    parentId: Option<string>,
    topRow: real, bottomRow: real, leftColumn: real, rightColumn: real,
    detachFromLayout: bool)

  type Widgets = map<string, Widget>

  type PositiveReal = r: real | r > 0.0 witness 1.0

  /** `GridDefaults.DEFAULT_GRID_ROW_HEIGHT` of the WidgetConstants file. */
  const DefaultGridRowHeight: PositiveReal := 10.0

  /** Collaborators the saga reads from: the column width of a parent canvas
      (`getCanvasDimensions`, given the parent if it exists and the current
      widgets) and sibling repositioning (`updateWidgetPositions`). */
  datatype Geometry = Geometry(
    columnSpace: (Option<Widget>, Widgets) -> PositiveReal,
    reposition: (Widgets, string) -> Widgets)

  /** Pixels per row: 1 for a widget detached from the layout, else the grid
      row height. */
  function RowSpace(w: Widget): PositiveReal {
    if w.detachFromLayout then 1.0 else DefaultGridRowHeight
  }

  /** `height / rowSpace`, with the two row spaces written out. */
  function PixelsToRows(w: Widget, height: real): real {
    if w.detachFromLayout then height else height / DefaultGridRowHeight
  }

  /** The widget's height in pixels, `(bottomRow - topRow) * rowSpace`. */
  function PixelHeight(w: Widget): real {
    if w.detachFromLayout then w.bottomRow - w.topRow
    else (w.bottomRow - w.topRow) * DefaultGridRowHeight
  }

  lemma RowSpaceConversions(w: Widget, height: real)
    ensures PixelsToRows(w, height) * RowSpace(w) == height
    ensures PixelHeight(w) == (w.bottomRow - w.topRow) * RowSpace(w)
  {
  }

  /** The widget resized to `size`: only bottom row and right column move,
      and its height in pixels becomes the requested one. */
  function Resized(w: Widget, size: Size, columnSpace: PositiveReal): (r: Widget)
    ensures r.topRow == w.topRow && r.leftColumn == w.leftColumn
    ensures r.parentId == w.parentId && r.detachFromLayout == w.detachFromLayout
    ensures PixelHeight(r) == size.height
  {
    w.(bottomRow := w.topRow + PixelsToRows(w, size.height),
       rightColumn := w.leftColumn + size.width / columnSpace)
  }

  /** The right column sits `width / columnSpace` columns right of the left one. */
  lemma ResizedWidth(w: Widget, size: Size, columnSpace: PositiveReal)
    ensures var r := Resized(w, size, columnSpace);
      (r.rightColumn - r.leftColumn) * columnSpace == size.width
  {
  }

  /** A batch entry is applied when its widget exists and has a parent id. */
  predicate Applies(all: Widgets, e: BatchEntry) {
    e.widgetId in all && all[e.widgetId].parentId.Some?
  }

  /** The first loop of the saga: apply each batch entry in order to the
      original widget, collecting the truthy parent ids in first-seen order. */
  function ApplyBatch(all: Widgets, b: Batch, widgets: Widgets, parents: seq<string>, g: Geometry)
    : (r: (Widgets, seq<string>))
    requires widgets.Keys == all.Keys
    ensures r.0.Keys == all.Keys
    ensures forall p :: p in parents ==> p in r.1
    ensures forall p :: p in r.1 && p !in parents ==> p != ""
    // every applied entry's non-empty parent id is collected, and only once
    ensures forall i :: 0 <= i < |b| && Applies(all, b[i]) && all[b[i].widgetId].parentId.value != "" ==>
      all[b[i].widgetId].parentId.value in r.1
    ensures Distinct(parents) ==> Distinct(r.1)
    decreases |b|
  {
    if b == [] then (widgets, parents)
    else
      var e := b[0];
      if !Applies(all, e) then
        ApplyBatch(all, b[1..], widgets, parents, g)
      else
        var w := all[e.widgetId];
        var parentId := w.parentId.value;
        var parents' := if parentId != "" && parentId !in parents then parents + [parentId] else parents;
        var parent := if parentId in widgets then Some(widgets[parentId]) else None;
        var widgets' := widgets[e.widgetId := Resized(w, e.size, g.columnSpace(parent, widgets))];
        ApplyBatch(all, b[1..], widgets', parents', g)
  }

  /** A widget the batch does not apply to keeps its current state. */
  lemma {:induction false} ApplyBatchLeavesOthers(all: Widgets, b: Batch, widgets: Widgets,
                                                  parents: seq<string>, g: Geometry, id: string)
    requires widgets.Keys == all.Keys && id in widgets
    requires forall i :: 0 <= i < |b| && b[i].widgetId == id ==> !Applies(all, b[i])
    ensures ApplyBatch(all, b, widgets, parents, g).0[id] == widgets[id]
    decreases |b|
  {
    if b != [] {
      var e := b[0];
      var rest := b[1..];
      assert forall i :: 0 <= i < |rest| ==> rest[i] == b[i + 1];
      if !Applies(all, e) {
        ApplyBatchLeavesOthers(all, rest, widgets, parents, g, id);
      } else {
        var w := all[e.widgetId];
        var parentId := w.parentId.value;
        var parents' := if parentId != "" && parentId !in parents then parents + [parentId] else parents;
        var parent := if parentId in widgets then Some(widgets[parentId]) else None;
        var widgets' := widgets[e.widgetId := Resized(w, e.size, g.columnSpace(parent, widgets))];
        ApplyBatchLeavesOthers(all, rest, widgets', parents', g, id);
      }
    }
  }

  /** An applied entry resizes the ORIGINAL widget: its top row and left
      column stay, and its bottom row sits `height / rowSpace` below the top. */
  lemma {:induction false} ApplyBatchResizes(all: Widgets, b: Batch, widgets: Widgets,
                                             parents: seq<string>, g: Geometry, i: nat)
    requires widgets.Keys == all.Keys && UniqueIds(b)
    requires i < |b| && Applies(all, b[i])
    ensures var w := all[b[i].widgetId];
      var r := ApplyBatch(all, b, widgets, parents, g).0[b[i].widgetId];
      r.topRow == w.topRow && r.leftColumn == w.leftColumn && r.parentId == w.parentId
      && r.detachFromLayout == w.detachFromLayout && PixelHeight(r) == b[i].size.height
    decreases |b|
  {
    var e := b[0];
    var rest := b[1..];
    assert forall k :: 0 <= k < |rest| ==> rest[k] == b[k + 1];
    assert UniqueIds(rest);
    if !Applies(all, e) {
      ApplyBatchResizes(all, rest, widgets, parents, g, i - 1);
    } else {
      var w := all[e.widgetId];
      var parentId := w.parentId.value;
      var parents' := if parentId != "" && parentId !in parents then parents + [parentId] else parents;
      var parent := if parentId in widgets then Some(widgets[parentId]) else None;
      var widgets' := widgets[e.widgetId := Resized(w, e.size, g.columnSpace(parent, widgets))];
      if i == 0 {
        ApplyBatchLeavesOthers(all, rest, widgets', parents', g, e.widgetId);
      } else {
        ApplyBatchResizes(all, rest, widgets', parents', g, i - 1);
      }
    }
  }

  function RepositionAll(widgets: Widgets, parents: seq<string>, g: Geometry): Widgets
    decreases |parents|
  {
    if parents == [] then widgets else RepositionAll(g.reposition(widgets, parents[0]), parents[1..], g)
  }

  // ---------------------------------------------------------------------
  // The changed-fields-only diff

  datatype PositionField = TopRow | BottomRow | LeftColumn | RightColumn

  function Position(w: Widget, f: PositionField): real {
    match f
    case TopRow => w.topRow
    case BottomRow => w.bottomRow
    case LeftColumn => w.leftColumn
    case RightColumn => w.rightColumn
  }

  const AllFields: set<PositionField> := {TopRow, BottomRow, LeftColumn, RightColumn}

  function ChangedFields(before: Widget, after: Widget): (c: map<PositionField, real>)
    ensures forall f :: f in c <==> Position(before, f) != Position(after, f)
    ensures forall f :: f in c ==> c[f] == Position(after, f)
  {
    map f | f in AllFields && Position(before, f) != Position(after, f) :: Position(after, f)
  }

  /** The property updates sent for a saga run, keyed by widget id. */
  type UpdateMap = map<string, map<PositionField, real>>

  function PositionDiff(before: Widgets, after: Widgets): (u: UpdateMap)
    requires after.Keys <= before.Keys
    ensures u.Keys <= after.Keys
    ensures forall id :: id in u <==>
      id in after && exists f :: Position(before[id], f) != Position(after[id], f)
    ensures forall id :: id in u ==> u[id] == ChangedFields(before[id], after[id]) && u[id] != map[]
  {
    map id | id in after && ChangedFields(before[id], after[id]) != map[] :: ChangedFields(before[id], after[id])
  }

  /** Applying the reported changes to the old positions gives the new ones. */
  function ApplyChanges(w: Widget, c: map<PositionField, real>): Widget {
    w.(topRow := if TopRow in c then c[TopRow] else w.topRow,
       bottomRow := if BottomRow in c then c[BottomRow] else w.bottomRow,
       leftColumn := if LeftColumn in c then c[LeftColumn] else w.leftColumn,
       rightColumn := if RightColumn in c then c[RightColumn] else w.rightColumn)
  }

  lemma DiffRestoresPositions(before: Widgets, after: Widgets, id: string, f: PositionField)
    requires after.Keys <= before.Keys && id in after
    ensures var u := PositionDiff(before, after);
      Position(ApplyChanges(before[id], if id in u then u[id] else map[]), f) == Position(after[id], f)
  {
    var u := PositionDiff(before, after);
    if id !in u {
      assert Position(before[id], f) == Position(after[id], f);
    }
  }

  lemma DiffOfUnchangedIsEmpty(ws: Widgets)
    ensures PositionDiff(ws, ws) == map[]
  {
  }

  /** The widgets after both loops of the saga: the batch applied in
      enumeration order, then every collected parent repositioned. */
  function AfterBatch(all: Widgets, b: Batch, g: Geometry): Widgets {
    var (applied, parents) := ApplyBatch(all, ForInOrder(b), all, [], g);
    RepositionAll(applied, parents, g)
  }

  predicate SamePosition(w: Widget, v: Widget) {
    forall f :: Position(w, f) == Position(v, f)
  }

  /** The saga's outcome: the dispatched update (none when nothing changed)
      and the batch left behind. A widget that appears only after
      repositioning has no earlier state to compare with; the saga throws there
      and the batch is kept. */
  datatype ProcessOutcome =
    | Processed(dispatched: Option<UpdateMap>, batch: Batch)
    | Threw(batch: Batch)

  function ProcessDimensionUpdates(all: Widgets, b: Batch, g: Geometry): (r: ProcessOutcome)
    requires UniqueIds(b)
    ensures r.Processed? ==> r.batch == []
    ensures r.Threw? ==> r.batch == b
    // it throws exactly when repositioning produced a widget it had not seen
    ensures r.Threw? <==> !(AfterBatch(all, b, g).Keys <= all.Keys)
    // nothing is dispatched iff no widget moved
    ensures r.Processed? ==>
      (r.dispatched.None? <==>
         forall id :: id in AfterBatch(all, b, g) ==> SamePosition(all[id], AfterBatch(all, b, g)[id]))
    // what is dispatched lists every moved widget with exactly its moved fields
    ensures r.Processed? && r.dispatched.Some? ==> r.dispatched.value == PositionDiff(all, AfterBatch(all, b, g))
  {
    var widgets := AfterBatch(all, b, g);
    if !(widgets.Keys <= all.Keys) then Threw(b)
    else
      var u := PositionDiff(all, widgets);
      Processed(if u == map[] then None else Some(u), [])
  }

  /** A geometry whose sibling repositioning keeps the set of widgets. */
  ghost predicate KeepsWidgets(g: Geometry) {
    forall ws, p :: g.reposition(ws, p).Keys == ws.Keys
  }

  /** A geometry whose sibling repositioning moves nothing. */
  ghost predicate MovesNothing(g: Geometry) {
    forall ws, p :: g.reposition(ws, p) == ws
  }

  lemma {:induction false} RepositionAllKeepsWidgets(ws: Widgets, ps: seq<string>, g: Geometry)
    requires KeepsWidgets(g)
    ensures RepositionAll(ws, ps, g).Keys == ws.Keys
    decreases |ps|
  {
    if ps != [] {
      RepositionAllKeepsWidgets(g.reposition(ws, ps[0]), ps[1..], g);
    }
  }

  lemma {:induction false} RepositionAllMovesNothing(ws: Widgets, ps: seq<string>, g: Geometry)
    requires MovesNothing(g)
    ensures RepositionAll(ws, ps, g) == ws
    decreases |ps|
  {
    if ps != [] {
      RepositionAllMovesNothing(g.reposition(ws, ps[0]), ps[1..], g);
    }
  }

  /** With no sibling moved, the processed widgets are the applied batch and
      the dispatched update is their diff against the originals. */
  lemma ProcessWithoutMoves(all: Widgets, b: Batch, g: Geometry)
    requires UniqueIds(b) && MovesNothing(g)
    ensures var applied := ApplyBatch(all, ForInOrder(b), all, [], g).0;
      var u := PositionDiff(all, applied);
      ProcessDimensionUpdates(all, b, g) == Processed(if u == map[] then None else Some(u), [])
  {
    var (applied, parents) := ApplyBatch(all, ForInOrder(b), all, [], g);
    RepositionAllMovesNothing(applied, parents, g);
  }

  /** When repositioning keeps the set of widgets, processing never throws. */
  lemma ProcessSucceeds(all: Widgets, b: Batch, g: Geometry)
    requires UniqueIds(b) && KeepsWidgets(g)
    ensures ProcessDimensionUpdates(all, b, g).Processed?
  {
    var (applied, parents) := ApplyBatch(all, ForInOrder(b), all, [], g);
    RepositionAllKeepsWidgets(applied, parents, g);
  }

  /** The bottom row of a widget resized to `height` moved exactly when the
      height differs from the widget's current one. */
  lemma ResizedBottomMovedIff(a: Widget, w: Widget, height: real, reported: bool)
    requires a.topRow == w.topRow && a.detachFromLayout == w.detachFromLayout
    requires PixelHeight(a) == height
    requires a.bottomRow != w.bottomRow <==> reported
    ensures height != PixelHeight(w) <==> reported
  {
  }

  /** The diff of resized widgets reports a bottom row exactly when it moved. */
  lemma DiffReportsBottomRow(all: Widgets, applied: Widgets, id: string)
    requires applied.Keys == all.Keys && id in all
    ensures var u := PositionDiff(all, applied);
      applied[id].bottomRow != all[id].bottomRow <==> (u != map[] && id in u && BottomRow in u[id])
  {
    var u := PositionDiff(all, applied);
    if applied[id].bottomRow != all[id].bottomRow {
      assert Position(all[id], BottomRow) != Position(applied[id], BottomRow);
      assert id in u;
    }
  }

  /** Applying a batch in any order: an applicable entry's widget shows up in
      the diff with a bottom row exactly when its height changed. */
  lemma AppliedEntryReportedIff(all: Widgets, order: Batch, g: Geometry, k: nat)
    requires UniqueIds(order) && k < |order| && Applies(all, order[k])
    ensures var id := order[k].widgetId;
      var w := all[id];
      var u := PositionDiff(all, ApplyBatch(all, order, all, [], g).0);
      order[k].size.height != PixelHeight(w) <==>
        (u != map[] && id in u && BottomRow in u[id])
  {
    var id := order[k].widgetId;
    var w := all[id];
    var applied := ApplyBatch(all, order, all, [], g).0;
    var u := PositionDiff(all, applied);
    ApplyBatchResizes(all, order, all, [], g, k);
    DiffReportsBottomRow(all, applied, id);
    ResizedBottomMovedIff(applied[id], w, order[k].size.height,
      u != map[] && id in u && BottomRow in u[id]);
  }

  /** With no sibling moved by repositioning, an applied batch entry reports
      its widget's bottom row exactly when the new height differs from the
      widget's current height. */
  lemma ProcessReportsResizedWidgets(all: Widgets, b: Batch, g: Geometry, i: nat)
    requires UniqueIds(b) && i < |b| && Applies(all, b[i]) && MovesNothing(g)
    ensures var r := ProcessDimensionUpdates(all, b, g);
      var id := b[i].widgetId;
      var w := all[id];
      && r.Processed?
      && (b[i].size.height != PixelHeight(w) <==>
            r.dispatched.Some? && id in r.dispatched.value && BottomRow in r.dispatched.value[id])
  {
    var k := VisitedAt(b, i);
    ProcessWithoutMoves(all, b, g);
    AppliedEntryReportedIff(all, ForInOrder(b), g, k);
  }

  /** Applying a batch in any order: a widget the diff reports was touched by
      an applicable entry, and its top row and left column did not move. */
  lemma ReportedWasApplied(all: Widgets, order: Batch, g: Geometry, id: string)
    requires UniqueIds(order)
    ensures var u := PositionDiff(all, ApplyBatch(all, order, all, [], g).0);
      id in u ==>
        (exists k :: 0 <= k < |order| && order[k].widgetId == id && Applies(all, order[k]))
        && TopRow !in u[id] && LeftColumn !in u[id]
  {
    var applied := ApplyBatch(all, order, all, [], g).0;
    if id in PositionDiff(all, applied) {
      if k :| 0 <= k < |order| && order[k].widgetId == id && Applies(all, order[k]) {
        ApplyBatchResizes(all, order, all, [], g, k);
      } else {
        ApplyBatchLeavesOthers(all, order, all, [], g, id);
      }
    }
  }

  /** With no sibling moved by repositioning, only widgets the batch names are
      reported, and never with a new top row or left column. */
  lemma OnlyBatchedWidgetsReported(all: Widgets, b: Batch, g: Geometry, id: string)
    requires UniqueIds(b) && MovesNothing(g)
    ensures var r := ProcessDimensionUpdates(all, b, g);
      && r.Processed?
      && (r.dispatched.Some? && id in r.dispatched.value ==>
            (exists i :: 0 <= i < |b| && b[i].widgetId == id && Applies(all, b[i]))
            && TopRow !in r.dispatched.value[id] && LeftColumn !in r.dispatched.value[id])
  {
    var order := ForInOrder(b);
    ProcessWithoutMoves(all, b, g);
    ReportedWasApplied(all, order, g, id);
    if id in PositionDiff(all, ApplyBatch(all, order, all, [], g).0) {
      var k :| 0 <= k < |order| && order[k].widgetId == id && Applies(all, order[k]);
      assert order[k] in multiset(b);
      var i :| 0 <= i < |b| && b[i] == order[k];
    }
  }

  /** An applicable entry whose resize changes its widget's height in pixels
      or leaves it with another right column. */
  predicate ResizeMoves(all: Widgets, applied: Widgets, e: BatchEntry) {
    && Applies(all, e) && e.widgetId in applied
    && (e.size.height != PixelHeight(all[e.widgetId])
        || applied[e.widgetId].rightColumn != all[e.widgetId].rightColumn)
  }

  /** Applying a batch in any order: an applicable entry's widget is in the
      diff exactly when the entry's resize moves it. */
  lemma EntryReportedIffMoves(all: Widgets, order: Batch, g: Geometry, k: nat)
    requires UniqueIds(order) && k < |order| && Applies(all, order[k])
    ensures var applied := ApplyBatch(all, order, all, [], g).0;
      order[k].widgetId in PositionDiff(all, applied) <==> ResizeMoves(all, applied, order[k])
  {
    var id := order[k].widgetId;
    var applied := ApplyBatch(all, order, all, [], g).0;
    ApplyBatchResizes(all, order, all, [], g, k);
    ResizedBottomMovedIff(applied[id], all[id], order[k].size.height, applied[id].bottomRow != all[id].bottomRow);
    assert Position(all[id], TopRow) == Position(applied[id], TopRow);
    assert Position(all[id], LeftColumn) == Position(applied[id], LeftColumn);
    if applied[id].bottomRow != all[id].bottomRow {
      assert Position(all[id], BottomRow) != Position(applied[id], BottomRow);
    }
    if applied[id].rightColumn != all[id].rightColumn {
      assert Position(all[id], RightColumn) != Position(applied[id], RightColumn);
    }
  }

  /** Applying a batch in any order: a widget is in the diff exactly when an
      entry naming it moves it. */
  lemma DiffIffResized(all: Widgets, order: Batch, g: Geometry, id: string)
    requires UniqueIds(order)
    ensures var applied := ApplyBatch(all, order, all, [], g).0;
      id in PositionDiff(all, applied) <==>
        exists k :: 0 <= k < |order| && order[k].widgetId == id && ResizeMoves(all, applied, order[k])
  {
    var applied := ApplyBatch(all, order, all, [], g).0;
    ReportedWasApplied(all, order, g, id);
    if id in PositionDiff(all, applied) {
      var k :| 0 <= k < |order| && order[k].widgetId == id && Applies(all, order[k]);
      EntryReportedIffMoves(all, order, g, k);
    } else {
      forall k | 0 <= k < |order| && order[k].widgetId == id && Applies(all, order[k])
        ensures !ResizeMoves(all, applied, order[k])
      {
        EntryReportedIffMoves(all, order, g, k);
      }
    }
  }

  /** With no sibling moved by repositioning, a widget is dispatched exactly
      when an applicable batch entry names it and its resize changes its
      height in pixels or its right column. */
  lemma DispatchedIffResized(all: Widgets, b: Batch, g: Geometry, id: string)
    requires UniqueIds(b) && MovesNothing(g)
    ensures var r := ProcessDimensionUpdates(all, b, g);
      var applied := ApplyBatch(all, ForInOrder(b), all, [], g).0;
      && r.Processed?
      && (r.dispatched.Some? && id in r.dispatched.value <==>
            exists i :: 0 <= i < |b| && b[i].widgetId == id && ResizeMoves(all, applied, b[i]))
  {
    var order := ForInOrder(b);
    var applied := ApplyBatch(all, order, all, [], g).0;
    ProcessWithoutMoves(all, b, g);
    DiffIffResized(all, order, g, id);
    if k :| 0 <= k < |order| && order[k].widgetId == id && ResizeMoves(all, applied, order[k]) {
      assert order[k] in multiset(b);
      var i :| 0 <= i < |b| && b[i] == order[k];
    }
    if i :| 0 <= i < |b| && b[i].widgetId == id && ResizeMoves(all, applied, b[i]) {
      var k := VisitedAt(b, i);
    }
  }

  // ---------------------------------------------------------------------
  // Switching the positioning type (updateLayoutPositioningSaga)

  datatype AppPositioningType = FIXED | AUTO

  datatype LayoutEffect =
    | SaveLayoutConvertedToAuto
    | RecalculateAutoLayoutColumns
    | SaveLayoutConvertedToFixed
    | UpdateApplicationLayoutType(positioning: AppPositioningType)

  function UpdateLayoutPositioning(current: AppPositioningType, requested: AppPositioningType)
    : (effects: seq<LayoutEffect>)
    ensures current == requested <==> effects == []
    ensures effects != [] ==> effects[|effects| - 1] == UpdateApplicationLayoutType(requested)
    ensures requested == AUTO && current != AUTO ==>
      effects == [SaveLayoutConvertedToAuto, RecalculateAutoLayoutColumns,
                  UpdateApplicationLayoutType(AUTO)]
    ensures requested == FIXED && current != FIXED ==>
      effects == [SaveLayoutConvertedToFixed, UpdateApplicationLayoutType(FIXED)]
  {
    if current == requested then []
    else if requested == AUTO then
      [SaveLayoutConvertedToAuto, RecalculateAutoLayoutColumns, UpdateApplicationLayoutType(AUTO)]
    else
      [SaveLayoutConvertedToFixed, UpdateApplicationLayoutType(requested)]
  }
}

=== FILE: basics.dfy ===
/** Small shared vocabulary: optional values, results, JavaScript-style
    truthiness of optional strings, ASCII case mapping, decimal rendering of
    naturals and joining string segments with a separator. */
module Basics {

  datatype Option<+T> = None | Some(value: T) {
    function GetOr(default: T): T {
      match this
      case Some(v) => v
      case None => default
    }
  }

  datatype Result<+T, +E> = Ok(value: T) | Err(error: E)

  /** A JavaScript string-or-undefined is truthy iff it is defined and not empty. */
  predicate Truthy(s: Option<string>) {
    s.Some? && s.value != ""
  }

  // ---------------------------------------------------------------------
  // ASCII case mapping (String.prototype.toUpperCase / toLowerCase,
  // java.lang.String.toLowerCase, restricted to ASCII letters).

  predicate IsLower(c: char) { 'a' <= c <= 'z' }
  predicate IsUpper(c: char) { 'A' <= c <= 'Z' }

  function UpperChar(c: char): (u: char)
    ensures !IsLower(u)
    ensures IsLower(c) ==> IsUpper(u)
    ensures !IsLower(c) ==> u == c
  {
    if IsLower(c) then (c as int - 32) as char else c
  }

  function LowerChar(c: char): (l: char)
    ensures !IsUpper(l)
    ensures IsUpper(c) ==> IsLower(l)
    ensures !IsUpper(c) ==> l == c
  {
    if IsUpper(c) then (c as int + 32) as char else c
  }

  function ToUpper(s: string): (r: string)
    ensures |r| == |s|
    ensures forall i :: 0 <= i < |r| ==> r[i] == UpperChar(s[i])
  {
    if s == [] then [] else [UpperChar(s[0])] + ToUpper(s[1..])
  }

  function ToLower(s: string): (r: string)
    ensures |r| == |s|
    ensures forall i :: 0 <= i < |r| ==> r[i] == LowerChar(s[i])
  {
    if s == [] then [] else [LowerChar(s[0])] + ToLower(s[1..])
  }

  /** Upper-casing twice is the same as upper-casing once. */
  lemma ToUpperIdempotent(s: string)
    ensures ToUpper(ToUpper(s)) == ToUpper(s)
  {
    var u := ToUpper(s);
    assert forall i :: 0 <= i < |u| ==> UpperChar(u[i]) == u[i];
  }

  /** Lower-casing is insensitive to the case of the input. */
  lemma ToLowerOfUpper(s: string)
    ensures ToLower(ToUpper(s)) == ToLower(s)
  {
    var u := ToUpper(s);
    assert forall i :: 0 <= i < |s| ==> LowerChar(UpperChar(s[i])) == LowerChar(s[i]);
  }

  // ---------------------------------------------------------------------
  // Decimal rendering of a natural number, as a template literal `${n}`
  // renders an array length.

  function DigitChar(d: nat): (c: char)
    requires d < 10
    ensures '0' <= c <= '9'
  {
    ('0' as int + d) as char
  }

  function DigitValue(c: char): (d: nat)
    requires '0' <= c <= '9'
    ensures d < 10
  {
    c as int - '0' as int
  }

  predicate AllDigits(s: string) {
    forall i :: 0 <= i < |s| ==> '0' <= s[i] <= '9'
  }

  function NatToString(n: nat): (r: string)
    ensures |r| >= 1
    ensures AllDigits(r)
    ensures n >= 10 ==> r[0] != '0'
    decreases n
  {
    if n < 10 then [DigitChar(n)] else NatToString(n / 10) + [DigitChar(n % 10)]
  }

  /** The reference reading of a string of decimal digits. */
  function ParseDecimal(s: string): nat
    requires AllDigits(s)
  {
    if s == [] then 0 else 10 * ParseDecimal(s[..|s| - 1]) + DigitValue(s[|s| - 1])
  }

  /** Rendering then reading back a natural gives the same natural. */
  lemma {:induction false} ParseNatToString(n: nat)
    ensures ParseDecimal(NatToString(n)) == n
    decreases n
  {
    var r := NatToString(n);
    if n < 10 {
      assert r[..0] == [];
    } else {
      ParseNatToString(n / 10);
      assert r[..|r| - 1] == NatToString(n / 10);
    }
  }

  /** Different naturals render differently. */
  lemma NatToStringInjective(m: nat, n: nat)
    requires NatToString(m) == NatToString(n)
    ensures m == n
  {
    ParseNatToString(m);
    ParseNatToString(n);
  }

  // ---------------------------------------------------------------------
  // Array.prototype.join

  function Join(parts: seq<string>, sep: string): (r: string)
    ensures parts == [] ==> r == ""
    ensures |parts| == 1 ==> r == parts[0]
    ensures |parts| >= 1 ==> parts[0] <= r
  {
    if parts == [] then ""
    else if |parts| == 1 then parts[0]
    else parts[0] + sep + Join(parts[1..], sep)
  }

  /** Joined output is empty exactly when every part is empty and there is
      at most one of them (a separator always shows up between two parts). */
  lemma {:induction false} JoinEmpty(parts: seq<string>, sep: string)
    requires sep != ""
    ensures Join(parts, sep) == "" <==>
      (|parts| <= 1 && forall i :: 0 <= i < |parts| ==> parts[i] == "")
  {
  }

  /** The length of a join: the parts plus one separator between each pair. */
  lemma {:induction false} JoinLength(parts: seq<string>, sep: string)
    requires parts != []
    ensures |Join(parts, sep)| == SumLengths(parts) + (|parts| - 1) * |sep|
    decreases |parts|
  {
    if |parts| > 1 {
      JoinLength(parts[1..], sep);
    }
  }

  predicate EndsWith(s: string, suffix: string) {
    |suffix| <= |s| && s[|s| - |suffix|..] == suffix
  }

  /** A join ends with its last part. */
  lemma {:induction false} JoinEndsWithLast(parts: seq<string>, sep: string)
    ensures parts != [] ==> EndsWith(Join(parts, sep), parts[|parts| - 1])
    decreases |parts|
  {
    if |parts| > 1 {
      var rest := parts[1..];
      JoinEndsWithLast(rest, sep);
      var j := Join(rest, sep);
      var last := parts[|parts| - 1];
      assert rest[|rest| - 1] == last;
      var whole := parts[0] + sep + j;
      assert whole[|whole| - |last|..] == j[|j| - |last|..];
    }
  }

  function SumLengths(parts: seq<string>): nat {
    if parts == [] then 0 else |parts[0]| + SumLengths(parts[1..])
  }

  // ---------------------------------------------------------------------
  // Array.prototype.filter and reordering

  /** No element occurs twice, as in a JavaScript `Set`'s iteration. */
  predicate Distinct<T(==)>(s: seq<T>) {
    forall i, j :: 0 <= i < j < |s| ==> s[i] != s[j]
  }

  /** `r` lists some of the elements of `s`, in the order they appear there. */
  ghost predicate IsSubsequence<T>(r: seq<T>, s: seq<T>)
    decreases |s|
  {
    r == [] || (s != [] && ((r[0] == s[0] && IsSubsequence(r[1..], s[1..])) || IsSubsequence(r, s[1..])))
  }

  /** The elements of `s` that `keep` accepts, in their order and with their multiplicity. */
  function Filter<T(!new)>(s: seq<T>, keep: T -> bool): (r: seq<T>)
    ensures |r| <= |s|
    ensures forall x :: x in r <==> x in s && keep(x)
    ensures (forall i :: 0 <= i < |s| ==> keep(s[i])) ==> r == s
  {
    if s == [] then []
    else if keep(s[0]) then [s[0]] + Filter(s[1..], keep)
    else Filter(s[1..], keep)
  }

  /** Filtering keeps the order of the kept elements and drops no copy of them. */
  lemma {:induction false} FilterKeepsOrderAndCopies<T(!new)>(s: seq<T>, keep: T -> bool)
    ensures IsSubsequence(Filter(s, keep), s)
    ensures forall x :: multiset(Filter(s, keep))[x] == if keep(x) then multiset(s)[x] else 0
    decreases |s|
  {
    if s != [] {
      assert s == [s[0]] + s[1..];
      var rest := Filter(s[1..], keep);
      FilterKeepsOrderAndCopies(s[1..], keep);
      if keep(s[0]) {
        assert ([s[0]] + rest)[1..] == rest;
      }
    }
  }

  lemma ConcatAssoc<T>(x: seq<T>, y: seq<T>, z: seq<T>)
    ensures x + (y + z) == (x + y) + z
  {
  }

  /** One step of `Filter`: the head, when kept, then the filtered tail. */
  lemma FilterStep<T(!new)>(s: seq<T>, keep: T -> bool)
    requires s != []
    ensures Filter(s, keep) == (if keep(s[0]) then [s[0]] else []) + Filter(s[1..], keep)
  {
  }

  lemma {:induction false} FilterConcat<T(!new)>(a: seq<T>, b: seq<T>, keep: T -> bool)
    ensures Filter(a + b, keep) == Filter(a, keep) + Filter(b, keep)
    decreases |a|
  {
    if a == [] {
      assert a + b == b;
    } else {
      var ab := a + b;
      assert ab[0] == a[0] && ab[1..] == a[1..] + b;
      FilterConcat(a[1..], b, keep);
      FilterStep(ab, keep);
      FilterStep(a, keep);
      ConcatAssoc(if keep(a[0]) then [a[0]] else [], Filter(a[1..], keep), Filter(b, keep));
    }
  }

  /** Filtering a list made of a rejected block then an accepted block gives
      the accepted block. */
  lemma FilterOfBlocks<T(!new)>(a: seq<T>, b: seq<T>, keep: T -> bool)
    requires forall x :: x in a ==> !keep(x)
    requires forall x :: x in b ==> keep(x)
    ensures Filter(a + b, keep) == b
  {
    FilterConcat(a, b, keep);
    FilterRejectsAll(a, keep);
    assert forall i :: 0 <= i < |b| ==> keep(b[i]);
  }

  lemma {:induction false} FilterRejectsAll<T(!new)>(a: seq<T>, keep: T -> bool)
    requires forall x :: x in a ==> !keep(x)
    ensures Filter(a, keep) == []
    decreases |a|
  {
    if a != [] {
      assert forall x :: x in a[1..] ==> x in a;
      FilterRejectsAll(a[1..], keep);
    }
  }

  /** Where an element of a list with one position cut out came from. */
  lemma SliceOutAt<T>(b: seq<T>, p: nat, q: nat)
    requires p < |b| && q < |b| - 1
    ensures (b[..p] + b[p + 1..])[q] == b[if q < p then q else q + 1]
  {
  }

  /** Cutting the same element out of two permutations of each other leaves
      permutations of each other. */
  lemma CutOutKeepsPermutation<T>(a: seq<T>, b: seq<T>, p: nat)
    requires multiset(a) == multiset(b) && a != [] && p < |b| && b[p] == a[|a| - 1]
    ensures multiset(a[..|a| - 1]) == multiset(b[..p] + b[p + 1..])
  {
    var n := |a| - 1;
    var x := a[n];
    var b' := b[..p] + b[p + 1..];
    assert a == a[..n] + [x];
    assert b == b[..p] + [x] + b[p + 1..];
    assert multiset(a) == multiset(a[..n]) + multiset{x};
    assert multiset(b) == multiset(b[..p]) + multiset{x} + multiset(b[p + 1..]);
    assert multiset(b') == multiset(b[..p]) + multiset(b[p + 1..]);
    assert forall y :: multiset(a[..n])[y] == (multiset(a[..n]) + multiset{x})[y] - multiset{x}[y];
  }

  /** Cutting an element out of a list with distinct keys keeps them distinct. */
  lemma CutOutKeepsKeysDistinct<T, K>(b: seq<T>, p: nat, key: T -> K)
    requires p < |b|
    requires forall i, j :: 0 <= i < j < |b| ==> key(b[i]) != key(b[j])
    ensures var b' := b[..p] + b[p + 1..];
      forall i, j :: 0 <= i < j < |b'| ==> key(b'[i]) != key(b'[j])
  {
    var b' := b[..p] + b[p + 1..];
    forall i, j | 0 <= i < j < |b'| ensures key(b'[i]) != key(b'[j]) {
      SliceOutAt(b, p, i);
      SliceOutAt(b, p, j);
    }
  }

  /** Keys that are distinct in a list stay distinct in any reordering of it. */
  lemma {:induction false} PermutationKeepsKeysDistinct<T, K>(a: seq<T>, b: seq<T>, key: T -> K)
    requires multiset(a) == multiset(b)
    requires forall i, j :: 0 <= i < j < |b| ==> key(b[i]) != key(b[j])
    ensures forall i, j :: 0 <= i < j < |a| ==> key(a[i]) != key(a[j])
    decreases |a|
  {
    if a != [] {
      var n := |a| - 1;
      var x := a[n];
      assert x in multiset(b);
      var p :| 0 <= p < |b| && b[p] == x;
      var b' := b[..p] + b[p + 1..];
      CutOutKeepsPermutation(a, b, p);
      CutOutKeepsKeysDistinct(b, p, key);
      PermutationKeepsKeysDistinct(a[..n], b', key);
      forall i | 0 <= i < n ensures key(a[i]) != key(x) {
        assert a[i] == a[..n][i];
        assert a[i] in multiset(b');
        var q :| 0 <= q < |b'| && b'[q] == a[i];
        SliceOutAt(b, p, q);
      }
      forall i, j | 0 <= i < j < |a| ensures key(a[i]) != key(a[j]) {
        if j < n {
          assert a[i] == a[..n][i] && a[j] == a[..n][j];
        }
      }
    }
  }
}

=== FILE: eval_tree.dfy ===
/** The evaluation dispatcher of `evalTree.ts`. One call takes the worker's
    session (an evaluator, or none) and a request, and either builds the
    first tree, rebuilds it in full (cyclic dependency or forced
    evaluation), or updates it incrementally. It then records errors and
    logs, falls back to the sanitised unevaluated tree on a throw, and
    assembles the patch list. The evaluator's own work (dependency graph,
    sorting, evaluation), the serialiser, the diff generator and the
    sanitiser are fields of an `Engine` the caller supplies. */
module EvalTree {
  import opened Basics

  type Path = string

  /** A data tree, config tree or evaluated-properties tree: values by path. */
  type Tree = map<Path, string>

  type Config = map<string, string>

  datatype EvalErrorType = UNKNOWN_ERROR | OtherEvalError(name: string)
  datatype EvalError = EvalError(errorType: EvalErrorType, message: string)

  datatype DataTreeDiff = DataTreeDiff(propertyPath: Path, event: string)
  datatype RemovedPath = RemovedPath(entityId: string, fullpath: Path)
  datatype MetaUpdate = MetaUpdate(widgetId: string, metaPropertyPath: Path, value: string)

  /** The evaluator state the dispatcher reads and writes. */
  datatype Evaluator = Evaluator(
    hasCyclicalDependency: bool,
    errors: seq<EvalError>,
    logs: seq<string>,
    inverseDependencies: map<Path, seq<Path>>,
    evalTree: Tree,
    evalProps: Tree,
    prevState: Option<Tree>,
    allActionValidationConfig: Config,
    undefinedEvalValuesMap: Option<map<Path, bool>>)

  /** A thrown error; `crashing` marks a `CrashingError`. */
  datatype Thrown = Thrown(crashing: bool, message: string)

  /** An evaluator call either returns or throws, leaving the evaluator in
      the state it had reached. */
  datatype Step<T> = Done(ev: Evaluator, value: T) | Threw(ev: Evaluator, error: Thrown)

  datatype FirstSetup = FirstSetup(evalOrder: seq<Path>, jsUpdates: Config)
  datatype FirstEval = FirstEval(evalTree: Tree, staleMetaIds: seq<string>)
  datatype UpdateSetup = UpdateSetup(
    evalOrder: seq<Path>, jsUpdates: Config, unEvalUpdates: seq<DataTreeDiff>,
    removedPaths: seq<RemovedPath>, isNewWidgetAdded: bool)
  datatype SubTreeEval = SubTreeEval(evalMetaUpdates: seq<MetaUpdate>, staleMetaIds: seq<string>)

  /** A patch of kind "newTree" whose right-hand side is a whole tree. */
  datatype Patch = NewTreePatch(rhs: Tree)

  datatype EntityConfigOptions = EntityConfigOptions(sanitizeDataTree: Option<bool>, evalProps: Option<Tree>)

  datatype Request = Request(
    unevalTree: Tree,
    configTree: Tree,
    allActionValidationConfig: Config,
    forceEvaluation: bool,
    metaWidgetIds: seq<string>,
    widgetTypeConfigMap: Config)

  /** The collaborators: the evaluator's constructor and methods, the
      entity-config and sanitising helpers, the serialiser (`None` when it
      throws), the diff generator (text and the new previous state) and the
      path de-duplicator. */
  datatype Engine = Engine(
    newEvaluator: (Config, Config) -> Evaluator,
    setupFirstTree: (Evaluator, Tree, Tree) -> Step<FirstSetup>,
    evalAndValidateFirstTree: Evaluator -> Step<FirstEval>,
    setupUpdateTree: (Evaluator, Tree, Tree) -> Step<UpdateSetup>,
    evalAndValidateSubTree: (Evaluator, seq<Path>, Tree, seq<DataTreeDiff>, seq<string>) -> Step<SubTreeEval>,
    makeEntityConfigs: (Tree, EntityConfigOptions) -> Tree,
    safeToRender: (Tree, Config, Tree) -> Tree,
    serialise: seq<Patch> -> Option<string>,
    optimisedUpdates: (Tree, Evaluator, seq<Path>) -> (string, Tree),
    uniqueOrderUpdatePaths: seq<Path> -> seq<Path>,
    jsVariableCreatedEvents: Config -> seq<string>)

  /** The worker's module state: the current evaluator, if any. */
  datatype Session = Session(evaluator: Option<Evaluator>)

  // ---------------------------------------------------------------------
  // The try block

  /** The local variables of one pass, with their initial values. */
  datatype Locals = Locals(
    evalOrder: seq<Path>,
    jsUpdates: Config,
    unEvalUpdates: seq<DataTreeDiff>,
    isCreateFirstTree: bool,
    dataTree: Tree,
    errors: seq<EvalError>,
    logs: seq<string>,
    dependencies: map<Path, seq<Path>>,
    evalMetaUpdates: seq<MetaUpdate>,
    staleMetaIds: seq<string>,
    removedPaths: seq<RemovedPath>,
    isNewWidgetAdded: bool,
    isNewTree: bool)

  const Initial: Locals := Locals([], map[], [], false, map[], [], [], map[], [], [], [], false, false)

  datatype Branch = FirstBuild | FullRebuild | Incremental

  function BranchOf(s: Session, req: Request): (b: Branch)
    ensures b == FirstBuild <==> s.evaluator.None?
    ensures b == FullRebuild <==>
      s.evaluator.Some? && (s.evaluator.value.hasCyclicalDependency || req.forceEvaluation)
  {
    if s.evaluator.None? then FirstBuild
    else if s.evaluator.value.hasCyclicalDependency || req.forceEvaluation then FullRebuild
    else Incremental
  }

  /** Where the try block ended: normally, or in the catch with the
      evaluator as the throw left it. */
  datatype Attempt = Completed(ev: Evaluator, locals: Locals) | Caught(ev: Evaluator, locals: Locals, error: Thrown)

  /** `setAllActionValidationConfig`, called only for a non-empty config. */
  function WithValidationConfig(ev: Evaluator, config: Config): (r: Evaluator)
    ensures |config| > 0 ==> r.allActionValidationConfig == config
    ensures |config| == 0 ==> r == ev
    ensures r.(allActionValidationConfig := ev.allActionValidationConfig) == ev
  {
    if |config| > 0 then ev.(allActionValidationConfig := config) else ev
  }

  /** The evaluator a full rebuild starts from. */
  function RebuiltEvaluator(e: Engine, req: Request): Evaluator {
    WithValidationConfig(e.newEvaluator(req.widgetTypeConfigMap, req.allActionValidationConfig),
                         req.allActionValidationConfig)
  }

  function EvaluatedTree(e: Engine, tree: Tree, ev: Evaluator): Tree {
    e.makeEntityConfigs(tree, EntityConfigOptions(None, Some(ev.evalProps)))
  }

  /** No evaluator yet: create one and build the first tree. The flag is set
      before anything can throw. */
  function FirstBuildAttempt(e: Engine, req: Request): (a: Attempt)
    ensures a.locals.isCreateFirstTree
    ensures a.locals.unEvalUpdates == [] && a.locals.removedPaths == [] && !a.locals.isNewWidgetAdded
    ensures a.Completed? ==> a.locals.isNewTree
  {
    var l1 := Initial.(isCreateFirstTree := true);
    var ev := e.newEvaluator(req.widgetTypeConfigMap, req.allActionValidationConfig);
    match e.setupFirstTree(ev, req.unevalTree, req.configTree)
    case Threw(ev1, t) => Caught(ev1, l1, t)
    case Done(ev1, setup) =>
      var l2 := l1.(evalOrder := setup.evalOrder, jsUpdates := setup.jsUpdates);
      match e.evalAndValidateFirstTree(ev1)
      case Threw(ev2, t) => Caught(ev2, l2, t)
      case Done(ev2, first) =>
        Completed(ev2, l2.(dataTree := EvaluatedTree(e, first.evalTree, ev2),
                           staleMetaIds := first.staleMetaIds, isNewTree := true))
  }

  /** Cyclic dependency or forced evaluation: replace the evaluator and
      rebuild. The flag is set only once the setup has returned, and the
      output is not marked as a new tree. */
  function FullRebuildAttempt(e: Engine, req: Request): (a: Attempt)
    ensures a.locals.isCreateFirstTree <==> e.setupFirstTree(RebuiltEvaluator(e, req), req.unevalTree, req.configTree).Done?
    ensures a.locals.unEvalUpdates == [] && a.locals.removedPaths == [] && !a.locals.isNewWidgetAdded
    ensures !a.locals.isNewTree
  {
    var ev := RebuiltEvaluator(e, req);
    match e.setupFirstTree(ev, req.unevalTree, req.configTree)
    case Threw(ev1, t) => Caught(ev1, Initial, t)
    case Done(ev1, setup) =>
      var l2 := Initial.(isCreateFirstTree := true, evalOrder := setup.evalOrder, jsUpdates := setup.jsUpdates);
      match e.evalAndValidateFirstTree(ev1)
      case Threw(ev2, t) => Caught(ev2, l2, t)
      case Done(ev2, first) =>
        Completed(ev2, l2.(dataTree := EvaluatedTree(e, first.evalTree, ev2),
                           staleMetaIds := first.staleMetaIds))
  }

  /** Neither: update the existing evaluator from the diff it computes. */
  function IncrementalAttempt(e: Engine, current: Evaluator, req: Request): (a: Attempt)
    ensures !a.locals.isCreateFirstTree && !a.locals.isNewTree
    ensures e.setupUpdateTree(WithValidationConfig(current, req.allActionValidationConfig),
                              req.unevalTree, req.configTree).Threw? ==>
      a.Caught? && a.locals.unEvalUpdates == [] && a.locals.removedPaths == [] && !a.locals.isNewWidgetAdded
    ensures var st := e.setupUpdateTree(WithValidationConfig(current, req.allActionValidationConfig),
                                        req.unevalTree, req.configTree);
      st.Done? ==>
        a.locals.evalOrder == st.value.evalOrder && a.locals.unEvalUpdates == st.value.unEvalUpdates
        && a.locals.removedPaths == st.value.removedPaths
        && a.locals.isNewWidgetAdded == st.value.isNewWidgetAdded
  {
    var ev := WithValidationConfig(current, req.allActionValidationConfig);
    var l1 := Initial.(isCreateFirstTree := false);
    match e.setupUpdateTree(ev, req.unevalTree, req.configTree)
    case Threw(ev1, t) => Caught(ev1, l1, t)
    case Done(ev1, setup) =>
      var l2 := l1.(evalOrder := setup.evalOrder, jsUpdates := setup.jsUpdates,
                    unEvalUpdates := setup.unEvalUpdates, removedPaths := setup.removedPaths,
                    isNewWidgetAdded := setup.isNewWidgetAdded);
      match e.evalAndValidateSubTree(ev1, setup.evalOrder, req.configTree, setup.unEvalUpdates, req.metaWidgetIds)
      case Threw(ev2, t) => Caught(ev2, l2, t)
      case Done(ev2, sub) =>
        Completed(ev2, l2.(dataTree := EvaluatedTree(e, ev2.evalTree, ev2),
                           evalMetaUpdates := sub.evalMetaUpdates, staleMetaIds := sub.staleMetaIds))
  }

  function TryBlock(e: Engine, s: Session, req: Request): Attempt {
    match BranchOf(s, req)
    case FirstBuild => FirstBuildAttempt(e, req)
    case FullRebuild => FullRebuildAttempt(e, req)
    case Incremental => IncrementalAttempt(e, s.evaluator.value, req)
  }

  /** After a normal end: report the evaluator's dependencies, errors and
      logs, and clear its errors and logs so they are reported once. */
  function Settle(ev: Evaluator, l: Locals): (r: (Evaluator, Locals))
    ensures r.0.errors == [] && r.0.logs == []
    ensures r.1.errors == ev.errors && r.1.logs == ev.logs && r.1.dependencies == ev.inverseDependencies
    ensures r.0.(errors := ev.errors, logs := ev.logs) == ev
  {
    (ev.(errors := [], logs := []),
     l.(dependencies := ev.inverseDependencies, errors := ev.errors, logs := ev.logs))
  }

  /** The unknown-error record for a thrown error. */
  function UnknownError(t: Thrown): EvalError {
    EvalError(UNKNOWN_ERROR, t.message)
  }

  /** The sanitised unevaluated tree shown after a throw. */
  function FallbackTree(e: Engine, req: Request, ev: Evaluator): Tree {
    e.safeToRender(e.makeEntityConfigs(req.unevalTree, EntityConfigOptions(Some(false), Some(ev.evalProps))),
                   req.widgetTypeConfigMap, req.configTree)
  }

  /** The catch block. The reported error list is the evaluator's own list,
      so the unknown error is appended to both. */
  function Recover(e: Engine, req: Request, ev: Evaluator, l: Locals, t: Thrown): (r: (Evaluator, Locals))
    ensures r.1.errors == ev.errors + (if t.crashing then [] else [UnknownError(t)])
    ensures r.0.errors == r.1.errors
    ensures r.1.logs == ev.logs == r.0.logs
    ensures r.1.dataTree == FallbackTree(e, req, ev)
    ensures r.1.unEvalUpdates == [] && r.1.isNewTree
    ensures r.0.(errors := ev.errors) == ev
  {
    var errors := if t.crashing then ev.errors else ev.errors + [UnknownError(t)];
    (ev.(errors := errors),
     l.(errors := errors, logs := ev.logs, dataTree := FallbackTree(e, req, ev), unEvalUpdates := [], isNewTree := true))
  }

  // ---------------------------------------------------------------------
  // Updates and the response

  datatype Updates =
    | NewTreeUpdates(patches: seq<Patch>, serialised: string)   // the whole tree
    | EmptyUpdates                                              // serialising it threw: "[]"
    | DiffUpdates(completeEvalOrder: seq<Path>, serialised: string)

  function UpdatesText(u: Updates): string {
    match u
    case NewTreeUpdates(_, text) => text
    case EmptyUpdates => "[]"
    case DiffUpdates(_, text) => text
  }

  function PropertyPaths(diffs: seq<DataTreeDiff>): (paths: seq<Path>)
    ensures |paths| == |diffs|
    ensures forall i :: 0 <= i < |diffs| ==> paths[i] == diffs[i].propertyPath
  {
    if diffs == [] then [] else [diffs[0].propertyPath] + PropertyPaths(diffs[1..])
  }

  /** A new tree is sent whole and becomes the previous state; otherwise the
      de-duplicated update paths drive the diff. */
  function MakeUpdates(e: Engine, ev: Evaluator, l: Locals): (r: (Evaluator, Updates))
    ensures l.isNewTree ==> r.1.NewTreeUpdates? || r.1.EmptyUpdates?
    ensures r.1.NewTreeUpdates? ==> r.1.patches == [NewTreePatch(l.dataTree)]
                                    && r.0.prevState == Some(l.dataTree)
    ensures r.1.EmptyUpdates? ==> r.0 == ev && e.serialise([NewTreePatch(l.dataTree)]).None?
    ensures !l.isNewTree ==>
      && r.1.DiffUpdates?
      && r.1.completeEvalOrder == e.uniqueOrderUpdatePaths(PropertyPaths(l.unEvalUpdates) + l.evalOrder)
    ensures r.0.(prevState := ev.prevState) == ev
  {
    if l.isNewTree then
      var patches := [NewTreePatch(l.dataTree)];
      match e.serialise(patches)
      case Some(text) => (ev.(prevState := Some(l.dataTree)), NewTreeUpdates(patches, text))
      case None => (ev, EmptyUpdates)
    else
      var order := e.uniqueOrderUpdatePaths(PropertyPaths(l.unEvalUpdates) + l.evalOrder);
      var (text, prev) := e.optimisedUpdates(l.dataTree, ev, order);
      (ev.(prevState := Some(prev)), DiffUpdates(order, text))
  }

  datatype Response = Response(
    updates: Updates,
    dependencies: map<Path, seq<Path>>,
    errors: seq<EvalError>,
    evalMetaUpdates: seq<MetaUpdate>,
    evaluationOrder: seq<Path>,
    jsUpdates: Config,
    logs: seq<string>,
    unEvalUpdates: seq<DataTreeDiff>,
    isCreateFirstTree: bool,
    configTree: Tree,
    staleMetaIds: seq<string>,
    removedPaths: seq<RemovedPath>,
    isNewWidgetAdded: bool,
    undefinedEvalValuesMap: map<Path, bool>,
    jsVarsCreatedEvent: seq<string>)

  /** The state after the try/catch: the evaluator and the locals. */
  function AfterTry(e: Engine, s: Session, req: Request): (Evaluator, Locals) {
    match TryBlock(e, s, req)
    case Completed(ev, l) => Settle(ev, l)
    case Caught(ev, l, t) => Recover(e, req, ev, l, t)
  }

  /** One `evalTree` call: the next session and the response. */
  function EvalTree(e: Engine, s: Session, req: Request): (r: (Session, Response))
    ensures r.0.evaluator.Some?
    ensures r.1.configTree == req.configTree
    ensures r.1.evaluationOrder == AfterTry(e, s, req).1.evalOrder
    ensures r.1.errors == AfterTry(e, s, req).1.errors
    ensures r.1.isCreateFirstTree == AfterTry(e, s, req).1.isCreateFirstTree
    ensures r.1.unEvalUpdates == AfterTry(e, s, req).1.unEvalUpdates
    ensures r.1.removedPaths == AfterTry(e, s, req).1.removedPaths
    ensures r.1.isNewWidgetAdded == AfterTry(e, s, req).1.isNewWidgetAdded
    ensures r.1.undefinedEvalValuesMap == r.0.evaluator.value.undefinedEvalValuesMap.GetOr(map[])
    ensures r.0.evaluator.value.errors == AfterTry(e, s, req).0.errors
    ensures r.0.evaluator.value.logs == AfterTry(e, s, req).0.logs
  {
    var (ev, l) := AfterTry(e, s, req);
    var (ev', updates) := MakeUpdates(e, ev, l);
    (Session(Some(ev')),
     Response(updates, l.dependencies, l.errors, l.evalMetaUpdates, l.evalOrder, l.jsUpdates, l.logs,
              l.unEvalUpdates, l.isCreateFirstTree, req.configTree, l.staleMetaIds, l.removedPaths,
              l.isNewWidgetAdded, ev'.undefinedEvalValuesMap.GetOr(map[]),
              e.jsVariableCreatedEvents(l.jsUpdates)))
  }

  /** `clearCache`: drop the evaluator. */
  function ClearCache(s: Session): (r: (Session, bool))
    ensures r.0.evaluator.None? && r.1
  {
    (Session(None), true)
  }

  // ---------------------------------------------------------------------
  // Properties of a pass

  predicate IsNewTree(u: Updates) {
    u.NewTreeUpdates? || u.EmptyUpdates?
  }

  /** With no evaluator the pass builds the first tree and sends it whole. */
  lemma FirstBuildSendsNewTree(e: Engine, s: Session, req: Request)
    requires s.evaluator.None?
    ensures var r := EvalTree(e, s, req).1;
      r.isCreateFirstTree && IsNewTree(r.updates)
  {
  }

  /** A full rebuild sets the first-tree flag exactly when its setup
      returned, and, unless something threw, still sends a diff. */
  lemma FullRebuildDiffs(e: Engine, s: Session, req: Request)
    requires BranchOf(s, req) == FullRebuild
    ensures EvalTree(e, s, req).1.isCreateFirstTree
            <==> e.setupFirstTree(RebuiltEvaluator(e, req), req.unevalTree, req.configTree).Done?
    ensures TryBlock(e, s, req).Completed? ==> EvalTree(e, s, req).1.updates.DiffUpdates?
  {
  }

  /** Only the incremental branch reports removed paths, unevaluated
      updates or a new widget, and it never sets the first-tree flag. */
  lemma OnlyIncrementalReportsDiffs(e: Engine, s: Session, req: Request)
    ensures var r := EvalTree(e, s, req).1;
      BranchOf(s, req) != Incremental ==>
        r.removedPaths == [] && r.unEvalUpdates == [] && !r.isNewWidgetAdded
    ensures BranchOf(s, req) == Incremental ==> !EvalTree(e, s, req).1.isCreateFirstTree
  {
  }

  /** After a normal pass the evaluator's errors and logs are reported and
      then cleared, so the next pass starts without them. */
  lemma ErrorsReportedOnce(e: Engine, s: Session, req: Request)
    requires TryBlock(e, s, req).Completed?
    ensures var (s', r) := EvalTree(e, s, req);
      r.errors == TryBlock(e, s, req).ev.errors && r.logs == TryBlock(e, s, req).ev.logs
      && s'.evaluator.value.errors == [] && s'.evaluator.value.logs == []
  {
  }

  /** A throw sends the sanitised unevaluated tree whole, drops the
      unevaluated updates and appends one unknown error unless it was a
      crashing error. */
  lemma ThrowFallsBack(e: Engine, s: Session, req: Request)
    requires TryBlock(e, s, req).Caught?
    ensures var a := TryBlock(e, s, req);
      var r := EvalTree(e, s, req).1;
      r.unEvalUpdates == [] && IsNewTree(r.updates)
      && (r.updates.NewTreeUpdates? ==> r.updates.patches == [NewTreePatch(FallbackTree(e, req, a.ev))])
      && r.errors == a.ev.errors + (if a.error.crashing then [] else [UnknownError(a.error)])
  {
  }

  /** A new tree goes out as one "newTree" patch holding the whole tree,
      which becomes the previous state; if serialising fails the updates
      are "[]". A diff is driven by the de-duplicated unevaluated-update
      paths followed by the evaluation order, and the response's evaluation
      order is the order itself. */
  lemma UpdatesShape(e: Engine, s: Session, req: Request)
    ensures var (s', r) := EvalTree(e, s, req);
      var l := AfterTry(e, s, req).1;
      (r.updates.NewTreeUpdates? ==>
         |r.updates.patches| == 1 && r.updates.patches[0] == NewTreePatch(l.dataTree)
         && s'.evaluator.value.prevState == Some(l.dataTree))
      && (r.updates.EmptyUpdates? ==> UpdatesText(r.updates) == "[]")
      && (r.updates.DiffUpdates? ==>
            r.updates.completeEvalOrder
              == e.uniqueOrderUpdatePaths(PropertyPaths(r.unEvalUpdates) + r.evaluationOrder))
  {
  }

  /** After `clearCache` the next pass is a first build. */
  lemma ClearCacheRestartsFirstBuild(e: Engine, s: Session, req: Request)
    ensures var s' := ClearCache(s).0;
      BranchOf(s', req) == FirstBuild
      && EvalTree(e, s', req).1.isCreateFirstTree && IsNewTree(EvalTree(e, s', req).1.updates)
  {
    FirstBuildSendsNewTree(e, ClearCache(s).0, req);
  }
}

=== FILE: focus_entity.dfy ===
/** Classification of editor URLs into the entity that holds the user's focus
    (`FocusEntity.ts`). Route matching (react-router's `matchPath`) is
    outside the model: its outcome arrives as an optional record of matched
    route parameters, and query-string parsing arrives as a branch extractor. */
module FocusEntity {
  import opened Basics

  datatype Entity =
    | PAGE | API | CANVAS | DATASOURCE | DEBUGGER | QUERY | JS_OBJECT | PROPERTY_PANE | NONE

  datatype FocusEntityInfo = FocusEntityInfo(entity: Entity, id: string, pageId: Option<string>)

  /** `FocusStoreHierarchy`: the entities whose focus state is stored under a parent. */
  const FocusStoreHierarchy: map<Entity, Entity> :=
    map[PROPERTY_PANE := PAGE, JS_OBJECT := PAGE, QUERY := PAGE]

  /** The placeholder id of a datasource that is still being created
      (`TEMP_DATASOURCE_ID` of the constants/Datasource file). */
  const TempDatasourceId: string := "temp-id-0"

  /** Parameters captured by the editor route table when the path matched it;
      an absent parameter is `None`. */
  datatype RouteParams = RouteParams(
    apiId: Option<string>,
    datasourceId: Option<string>,
    pluginPackageName: Option<string>,
    queryId: Option<string>,
    appId: Option<string>,
    actionId: Option<string>,
    pageId: Option<string>,
    collectionId: Option<string>,
    widgetIds: Option<string>,
    selectedTab: Option<string>)

  /** Would the datasource-id rule apply? */
  predicate RealDatasource(p: RouteParams) {
    Truthy(p.datasourceId) && p.datasourceId.value != TempDatasourceId
  }

  /** `identifyEntityFromPath`, given the outcome of matching the path
      against the editor route table (`None` when no route matched). */
  function IdentifyEntityFromPath(m: Option<RouteParams>): (r: FocusEntityInfo)
    ensures m.None? ==> r == FocusEntityInfo(NONE, "", Some(""))
    ensures m.Some? ==> r.pageId == m.value.pageId
    ensures r.entity in {NONE, QUERY, API, DATASOURCE, JS_OBJECT, PROPERTY_PANE, CANVAS}
    // an api id wins over every other parameter
    ensures m.Some? && Truthy(m.value.apiId) ==>
      r.id == m.value.apiId.value
      && r.entity == (if Truthy(m.value.pluginPackageName) then QUERY else API)
    // a datasource id counts only when it is not the temporary one
    ensures m.Some? && !Truthy(m.value.apiId) && RealDatasource(m.value) ==>
      r.entity == DATASOURCE && r.id == m.value.datasourceId.value
    ensures m.Some? && !Truthy(m.value.apiId) && !RealDatasource(m.value)
            && Truthy(m.value.selectedTab) ==>
      r.entity == DATASOURCE && r.id == m.value.selectedTab.value
    ensures m.Some? && !Truthy(m.value.apiId) && !RealDatasource(m.value)
            && !Truthy(m.value.selectedTab) && Truthy(m.value.actionId) ==>
      r.entity == QUERY && r.id == m.value.actionId.value
    ensures m.Some? && !Truthy(m.value.apiId) && !RealDatasource(m.value)
            && !Truthy(m.value.selectedTab) && !Truthy(m.value.actionId)
            && Truthy(m.value.collectionId) ==>
      r.entity == JS_OBJECT && r.id == m.value.collectionId.value
    ensures m.Some? && !Truthy(m.value.apiId) && !RealDatasource(m.value)
            && !Truthy(m.value.selectedTab) && !Truthy(m.value.actionId)
            && !Truthy(m.value.collectionId) && Truthy(m.value.widgetIds) ==>
      r.entity == PROPERTY_PANE && r.id == m.value.widgetIds.value
    // nothing recognisable: the canvas of the matched page
    ensures m.Some? && !Truthy(m.value.apiId) && !RealDatasource(m.value)
            && !Truthy(m.value.selectedTab) && !Truthy(m.value.actionId)
            && !Truthy(m.value.collectionId) && !Truthy(m.value.widgetIds) ==>
      r.entity == CANVAS && r.id == ""
  {
    match m
    case None => FocusEntityInfo(NONE, "", Some(""))
    case Some(p) =>
      if Truthy(p.apiId) then
        if Truthy(p.pluginPackageName) then FocusEntityInfo(QUERY, p.apiId.value, p.pageId)
        else FocusEntityInfo(API, p.apiId.value, p.pageId)
      else if Truthy(p.datasourceId) && p.datasourceId.value != TempDatasourceId then
        FocusEntityInfo(DATASOURCE, p.datasourceId.value, p.pageId)
      else if Truthy(p.selectedTab) then
        FocusEntityInfo(DATASOURCE, p.selectedTab.value, p.pageId)
      else if Truthy(p.actionId) then
        FocusEntityInfo(QUERY, p.actionId.value, p.pageId)
      else if Truthy(p.collectionId) then
        FocusEntityInfo(JS_OBJECT, p.collectionId.value, p.pageId)
      else if Truthy(p.widgetIds) then
        FocusEntityInfo(PROPERTY_PANE, p.widgetIds.value, p.pageId)
      else
        FocusEntityInfo(CANVAS, "", p.pageId)
  }

  /** The same cascade as an ordered rule list: each rule proposes an
      entity and the parameter that identifies it, a rule applies when its
      parameter is truthy, and the first applicable rule decides. */
  datatype Rule = Rule(entity: Entity, param: Option<string>)

  function Rules(p: RouteParams): seq<Rule> {
    [ Rule(if Truthy(p.pluginPackageName) then QUERY else API, p.apiId),
      Rule(DATASOURCE, if p.datasourceId == Some(TempDatasourceId) then None else p.datasourceId),
      Rule(DATASOURCE, p.selectedTab),
      Rule(QUERY, p.actionId),
      Rule(JS_OBJECT, p.collectionId),
      Rule(PROPERTY_PANE, p.widgetIds) ]
  }

  function FirstApplicable(rules: seq<Rule>, pageId: Option<string>): FocusEntityInfo {
    if rules == [] then FocusEntityInfo(CANVAS, "", pageId)
    else if Truthy(rules[0].param) then
      FocusEntityInfo(rules[0].entity, rules[0].param.value, pageId)
    else FirstApplicable(rules[1..], pageId)
  }

  /** The rule at index `i` decides when every earlier rule is inapplicable
      and it applies (or `i` is past the end, leaving the canvas fallback). */
  lemma {:induction false} FirstApplicableAt(rules: seq<Rule>, pageId: Option<string>, i: nat)
    requires i <= |rules|
    requires forall j :: 0 <= j < i ==> !Truthy(rules[j].param)
    requires i < |rules| ==> Truthy(rules[i].param)
    ensures FirstApplicable(rules, pageId) ==
      if i == |rules| then FocusEntityInfo(CANVAS, "", pageId)
      else FocusEntityInfo(rules[i].entity, rules[i].param.value, pageId)
    decreases i
  {
    if i > 0 {
      assert !Truthy(rules[0].param);
      FirstApplicableAt(rules[1..], pageId, i - 1);
    }
  }

  /** Precedence apiId > datasourceId > selectedTab > actionId >
      collectionId > widgetIds, with the page canvas as fallback. */
  lemma IdentifyIsFirstApplicableRule(p: RouteParams)
    ensures IdentifyEntityFromPath(Some(p)) == FirstApplicable(Rules(p), p.pageId)
  {
    var rs := Rules(p);
    assert Truthy(rs[1].param) <==> RealDatasource(p);
    var i :=
      if Truthy(p.apiId) then 0
      else if RealDatasource(p) then 1
      else if Truthy(p.selectedTab) then 2
      else if Truthy(p.actionId) then 3
      else if Truthy(p.collectionId) then 4
      else if Truthy(p.widgetIds) then 5
      else 6;
    FirstApplicableAt(rs, p.pageId, i);
  }

  /** The temporary datasource id never yields a DATASOURCE focus through
      the datasource-id rule: the result is whatever the remaining rules give
      for the same match without a datasource id. */
  lemma TempDatasourceFallsThrough(p: RouteParams)
    requires p.datasourceId == Some(TempDatasourceId)
    ensures IdentifyEntityFromPath(Some(p)) ==
            IdentifyEntityFromPath(Some(p.(datasourceId := None)))
  {
  }

  // ---------------------------------------------------------------------
  // IDE paths

  /** The `ideState` route parameter; only the page state is inspected. */
  datatype IdeAppState = PageState | OtherIdeState(name: string)

  /** The `pageNav` route parameter. */
  datatype PageNavState = UI | JS | QUERIES | OtherPageNav(name: string)

  /** Outcomes of matching one path against the IDE route patterns, from the
      outermost (IDE_PATH) to the detail patterns; `None` means no match. */
  datatype IdeMatches = IdeMatches(
    ideState: Option<Option<IdeAppState>>,    // IDE_PATH
    page: Option<string>,                     // IDE_PAGE_PATH, with its pageId
    pageNav: Option<Option<PageNavState>>,    // IDE_PAGE_NAV_PATH
    uiDetail: Option<string>,                 // IDE_PAGE_UI_DETAIL_PATH, widgetIds
    jsDetail: Option<Option<string>>,         // IDE_PAGE_JS_DETAIL_PATH, collectionId
    queriesDetail: Option<Option<string>>)    // IDE_PAGE_QUERIES_DETAIL_PATH, actionId

  /** `x || ""` for an optional route parameter. */
  function OrEmpty(s: Option<string>): string {
    if Truthy(s) then s.value else ""
  }

  /** The navigation tab of a page, when the path reaches that deep. */
  function PageNavOf(m: IdeMatches): Option<PageNavState> {
    if m.ideState == Some(Some(PageState)) && m.page.Some? && m.pageNav.Some?
    then m.pageNav.value
    else None
  }

  function IdentifyIDEEntityFromPath(m: IdeMatches): (r: FocusEntityInfo)
    ensures r.entity in {PROPERTY_PANE, PAGE, JS_OBJECT, QUERY, NONE}
    ensures PageNavOf(m).None? ==> r == FocusEntityInfo(NONE, "", Some(""))
    ensures PageNavOf(m) == Some(UI) ==>
      if m.uiDetail.Some?
      then r == FocusEntityInfo(PROPERTY_PANE, m.uiDetail.value, Some(m.page.value))
      else r == FocusEntityInfo(PAGE, m.page.value, Some(m.page.value))
    ensures PageNavOf(m) == Some(JS) ==>
      if m.jsDetail.Some?
      then r == FocusEntityInfo(JS_OBJECT, OrEmpty(m.jsDetail.value), Some(m.page.value))
      else r == FocusEntityInfo(PAGE, m.page.value, Some(m.page.value))
    ensures PageNavOf(m) == Some(QUERIES) ==>
      if m.queriesDetail.Some?
      then r == FocusEntityInfo(QUERY, OrEmpty(m.queriesDetail.value), Some(m.page.value))
      else r == FocusEntityInfo(PAGE, m.page.value, Some(m.page.value))
    ensures PageNavOf(m).Some? && PageNavOf(m).value.OtherPageNav? ==>
      r == FocusEntityInfo(NONE, "", Some(""))
  {
    var none := FocusEntityInfo(NONE, "", Some(""));
    if m.ideState.Some? && m.ideState.value == Some(PageState) then
      match m.page
      case None => none
      case Some(pageId) =>
        match m.pageNav
        case None => none
        case Some(nav) =>
          if nav == Some(UI) then
            match m.uiDetail
            case Some(widgetIds) => FocusEntityInfo(PROPERTY_PANE, widgetIds, Some(pageId))
            case None => FocusEntityInfo(PAGE, pageId, Some(pageId))
          else if nav == Some(JS) then
            match m.jsDetail
            case Some(collectionId) => FocusEntityInfo(JS_OBJECT, OrEmpty(collectionId), Some(pageId))
            case None => FocusEntityInfo(PAGE, pageId, Some(pageId))
          else if nav == Some(QUERIES) then
            match m.queriesDetail
            case Some(actionId) => FocusEntityInfo(QUERY, OrEmpty(actionId), Some(pageId))
            case None => FocusEntityInfo(PAGE, pageId, Some(pageId))
          else none
    else none
  }

  /** The entity kinds whose URL is remembered for focus restoration. */
  const EntityTypesToStore: seq<Entity> := [QUERY, API, JS_OBJECT, DATASOURCE, PROPERTY_PANE]

  /** `shouldStoreURLForFocus`: `indexOf(entity) >= 0` on the list above. */
  function ShouldStoreURLForFocus(m: IdeMatches): (b: bool)
    ensures b <==> IdentifyIDEEntityFromPath(m).entity in FocusStoreHierarchy
    ensures b <==> IdentifyIDEEntityFromPath(m).entity in {PROPERTY_PANE, JS_OBJECT, QUERY}
  {
    IdentifyIDEEntityFromPath(m).entity in EntityTypesToStore
  }

  /** Does the path reach the detail route of its page's navigation tab? */
  predicate DetailMatched(m: IdeMatches) {
    match PageNavOf(m)
    case Some(UI) => m.uiDetail.Some?
    case Some(JS) => m.jsDetail.Some?
    case Some(QUERIES) => m.queriesDetail.Some?
    case _ => false
  }

  /** A known navigation tab of a matched page. */
  predicate OnKnownTab(m: IdeMatches) {
    PageNavOf(m) in {Some(UI), Some(JS), Some(QUERIES)}
  }

  /** An IDE path's URL is stored for focus exactly when it reaches the detail
      route of its page's tab, and the stored entity belongs to the matched
      page. A known tab without a detail route focuses the page itself; every
      other path focuses nothing. */
  lemma IDEFocusFollowsRouteDepth(m: IdeMatches)
    ensures ShouldStoreURLForFocus(m) <==> DetailMatched(m)
    ensures var r := IdentifyIDEEntityFromPath(m);
      && (DetailMatched(m) ==> m.page.Some? && r.pageId == m.page)
      && (r.entity == PAGE <==> OnKnownTab(m) && !DetailMatched(m))
      && (r.entity == PAGE ==> r.pageId == Some(r.id))
      && (r.entity == NONE <==> !OnKnownTab(m))
  {
  }

  // ---------------------------------------------------------------------
  // Branch comparison

  /** `fetchGitBranch`: drop the leading "?" of a search string and read
      its `branch` parameter with the (external) query-string parser. */
  function FetchGitBranch(search: string, parseBranch: string -> Option<string>): Option<string> {
    parseBranch(if |search| >= 1 then search[1..] else "")
  }

  function IsSameBranch(previous: string, current: string,
                        parseBranch: string -> Option<string>): (b: bool)
    ensures previous == current ==> b
  {
    FetchGitBranch(previous, parseBranch) == FetchGitBranch(current, parseBranch)
  }

  lemma IsSameBranchSymmetric(a: string, b: string, parseBranch: string -> Option<string>)
    ensures IsSameBranch(a, b, parseBranch) == IsSameBranch(b, a, parseBranch)
  {
  }

  lemma IsSameBranchTransitive(a: string, b: string, c: string,
                               parseBranch: string -> Option<string>)
    requires IsSameBranch(a, b, parseBranch) && IsSameBranch(b, c, parseBranch)
    ensures IsSameBranch(a, c, parseBranch)
  {
  }
}

=== FILE: insertion_sort.dfy ===
/** Sorting a list with a comparator, standing for `List.sort`: insertion
    sort that places each element after the earlier elements it is not below.
    Proved here: the result is a permutation of the input and, for a total
    preorder, is ordered. That equivalent elements keep their input order is
    not proved. */
module InsertionSort {

  /** `leq` is a total preorder on the values in question. */
  ghost predicate TotalPreorder<T(!new)>(leq: (T, T) -> bool) {
    (forall a, b :: leq(a, b) || leq(b, a))
    && (forall a, b, c :: leq(a, b) && leq(b, c) ==> leq(a, c))
  }

  ghost predicate Sorted<T>(s: seq<T>, leq: (T, T) -> bool) {
    forall i, j :: 0 <= i < j < |s| ==> leq(s[i], s[j])
  }

  /** Place `x` after every element of the sorted `s` that is not above it. */
  function Insert<T>(x: T, s: seq<T>, leq: (T, T) -> bool): (r: seq<T>)
    ensures |r| == |s| + 1
    ensures multiset(r) == multiset(s) + multiset{x}
  {
    if s == [] || !leq(s[0], x) then [x] + s
    else
      assert s == [s[0]] + s[1..];
      [s[0]] + Insert(x, s[1..], leq)
  }

  function Sort<T>(s: seq<T>, leq: (T, T) -> bool): (r: seq<T>)
    ensures |r| == |s|
    ensures multiset(r) == multiset(s)
  {
    if s == [] then []
    else
      assert s == s[..|s| - 1] + [s[|s| - 1]];
      Insert(s[|s| - 1], Sort(s[..|s| - 1], leq), leq)
  }

  /** Sorting loses no element. */
  lemma SortKeepsElement<T>(s: seq<T>, leq: (T, T) -> bool, i: nat)
    requires i < |s|
    ensures s[i] in Sort(s, leq)
  {
    assert s[i] in multiset(s);
    assert s[i] in multiset(Sort(s, leq));
  }

  lemma {:induction false} InsertSorted<T(!new)>(x: T, s: seq<T>, leq: (T, T) -> bool)
    requires TotalPreorder(leq) && Sorted(s, leq)
    ensures Sorted(Insert(x, s, leq), leq)
    decreases |s|
  {
    var r := Insert(x, s, leq);
    if s == [] || !leq(s[0], x) {
      if s != [] {
        assert leq(x, s[0]);
        forall j | 1 <= j < |r| ensures leq(r[0], r[j]) {
          assert r[j] == s[j - 1];
          if j > 1 { assert leq(s[0], s[j - 1]); }
        }
      }
    } else {
      var tail := Insert(x, s[1..], leq);
      InsertSorted(x, s[1..], leq);
      assert multiset(tail) == multiset(s[1..]) + multiset{x};
      forall j | 1 <= j < |r| ensures leq(r[0], r[j]) {
        assert r[j] == tail[j - 1];
        assert r[j] in multiset(tail);
        if r[j] != x {
          assert r[j] in multiset(s[1..]);
          var k :| 0 <= k < |s[1..]| && s[1..][k] == r[j];
          assert s[k + 1] == r[j];
        }
      }
    }
  }

  lemma {:induction false} SortSorted<T(!new)>(s: seq<T>, leq: (T, T) -> bool)
    requires TotalPreorder(leq)
    ensures Sorted(Sort(s, leq), leq)
    decreases |s|
  {
    if s != [] {
      SortSorted(s[..|s| - 1], leq);
      InsertSorted(s[|s| - 1], Sort(s[..|s| - 1], leq), leq);
    }
  }

  /** A sorted block of elements with property `p` followed by elements
      without it: every `p` element comes before the others and the `p`
      elements are in order. */
  lemma SortedBlockFirst<T>(sorted: seq<T>, rest: seq<T>, p: T -> bool, leq: (T, T) -> bool)
    requires Sorted(sorted, leq)
    requires forall x :: x in sorted ==> p(x)
    requires forall x :: x in rest ==> !p(x)
    ensures var r := sorted + rest;
      forall i, j :: 0 <= i < j < |r| && p(r[j]) ==> p(r[i]) && leq(r[i], r[j])
  {
    var r := sorted + rest;
    forall i, j | 0 <= i < j < |r| && p(r[j]) ensures p(r[i]) && leq(r[i], r[j]) {
      if j < |sorted| {
        assert r[i] == sorted[i] && r[j] == sorted[j];
      }
    }
  }
}

=== FILE: use_columns.dfy ===
/** Column choices of the one-click-binding form (`useColumns.tsx`): the
    dropdown options, the typed column list with selection flags, the
    selected subset and whether the control is shown. Store selectors and
    React hooks are outside the model; what they return arrives as
    `ColumnSources`. */
module ColumnDropdown {
  import opened Basics

  datatype PluginPackage = GoogleSheets | OtherPlugin(name: string)

  /** A column as the datasource structure reports it. */
  datatype TableColumn = TableColumn(name: string, columnType: Option<string>, isSelected: Option<bool>)

  /** A Google Sheets column: a display label and the column's value. */
  datatype SheetColumn = SheetColumn(displayLabel: string, value: string)

  datatype DropdownOption = DropdownOption(id: string, displayLabel: string, value: string, subText: Option<string>)

  /** A column of the generated form, with its coarse type and whether it is picked. */
  datatype ColumnEntry = ColumnEntry(name: string, columnType: string, isSelected: bool)

  datatype FormConfig = FormConfig(
    datasourcePluginName: Option<string>,
    sheet: Option<string>,
    table: Option<string>,
    selectedColumns: Option<seq<ColumnEntry>>,
    excludePrimaryColumn: bool)

  /** What the store selectors return; `None` for a value that is not an array. */
  datatype ColumnSources = ColumnSources(
    pluginPackage: Option<PluginPackage>,
    columns: Option<seq<TableColumn>>,
    sheetColumns: Option<seq<SheetColumn>>,
    storedPrimaryColumn: Option<string>)

  // ---------------------------------------------------------------------
  // Type names

  const NumberTypes: set<string> := {"int4", "int2", "Integer", "Double"}
  const StringTypes: set<string> := {"varchar", "text", "String"}
  const DateTypes: set<string> := {"date", "timestamptz"}

  /** `prepareColumns`: the coarse type of a database type name. */
  function PrepareColumns(t: Option<string>): (r: string)
    ensures r in {"number", "string", "date", "array"}
    ensures r == "number" <==> t.Some? && t.value in NumberTypes
    ensures r == "date" <==> t.Some? && t.value in DateTypes
    ensures r == "array" <==> t == Some("Array")
  {
    match t
    case None => "string"
    case Some(name) =>
      if name in NumberTypes then "number"
      else if name in StringTypes then "string"
      else if name in DateTypes then "date"
      else if name == "Array" then "array"
      else "string"
  }

  // ---------------------------------------------------------------------
  // Primary column

  /** The stored primary column, or "_id" for MongoDB when none is stored. */
  function PrimaryColumn(src: ColumnSources, config: FormConfig): (p: Option<string>)
    ensures Truthy(src.storedPrimaryColumn) ==> p == src.storedPrimaryColumn
    ensures !Truthy(src.storedPrimaryColumn) && config.datasourcePluginName == Some("MongoDB") ==>
      p == Some("_id")
    ensures !Truthy(src.storedPrimaryColumn) && config.datasourcePluginName != Some("MongoDB") ==>
      p == src.storedPrimaryColumn
  {
    if !Truthy(src.storedPrimaryColumn) && config.datasourcePluginName == Some("MongoDB")
    then Some("_id")
    else src.storedPrimaryColumn
  }

  // ---------------------------------------------------------------------
  // Filtering and mapping

  function Map<T(!new), U(!new)>(s: seq<T>, f: T -> U): (r: seq<U>)
    ensures |r| == |s|
    ensures forall i :: 0 <= i < |s| ==> r[i] == f(s[i])
    ensures forall x :: x in s ==> f(x) in r
    ensures forall y :: y in r ==> exists x :: x in s && y == f(x)
  {
    if s == [] then [] else [f(s[0])] + Map(s[1..], f)
  }

  /** Mapping keeps a subsequence a subsequence. */
  lemma {:induction false} MapKeepsSubsequence<T(!new), U(!new)>(r: seq<T>, s: seq<T>, f: T -> U)
    requires IsSubsequence(r, s)
    ensures IsSubsequence(Map(r, f), Map(s, f))
    decreases |s|
  {
    if r != [] {
      assert Map(s, f)[1..] == Map(s[1..], f);
      if r[0] == s[0] && IsSubsequence(r[1..], s[1..]) {
        MapKeepsSubsequence(r[1..], s[1..], f);
        assert Map(r, f)[1..] == Map(r[1..], f);
      } else {
        MapKeepsSubsequence(r, s[1..], f);
      }
    }
  }

  /** Would a column pass the search filter? `column.type` must be truthy and
      its lower-cased form one of the searchable type names. */
  predicate Searchable(c: TableColumn, allowedSearchTypes: seq<string>) {
    Truthy(c.columnType) && ToLower(c.columnType.value) in allowedSearchTypes
  }

  function IsSheetsSource(src: ColumnSources): bool {
    src.pluginPackage == Some(GoogleSheets) && src.sheetColumns.Some?
  }

  // ---------------------------------------------------------------------
  // Dropdown options

  function TableOption(c: TableColumn): DropdownOption {
    DropdownOption(c.name, c.name, c.name, c.columnType)
  }

  function SheetOption(c: SheetColumn): DropdownOption {
    DropdownOption(c.value, c.displayLabel, c.value, None)
  }

  function Options(src: ColumnSources, isSearchable: bool, allowedSearchTypes: seq<string>)
    : (opts: seq<DropdownOption>)
    ensures IsSheetsSource(src) ==> |opts| == |src.sheetColumns.value|
    ensures IsSheetsSource(src) ==> forall i :: 0 <= i < |opts| ==>
      opts[i].id == opts[i].value == src.sheetColumns.value[i].value
      && opts[i].displayLabel == src.sheetColumns.value[i].displayLabel
    ensures !IsSheetsSource(src) && src.columns.None? ==> opts == []
    ensures !IsSheetsSource(src) && src.columns.Some? && !isSearchable ==>
      |opts| == |src.columns.value|
    // with searching off, one option per column, in column order
    ensures !IsSheetsSource(src) && src.columns.Some? && !isSearchable ==>
      forall i :: 0 <= i < |opts| ==> opts[i] == TableOption(src.columns.value[i])
    // the offered options keep the order of their columns
    ensures !IsSheetsSource(src) && src.columns.Some? ==>
      IsSubsequence(opts, Map(src.columns.value, TableOption))
    // with searching on, exactly the searchable columns are offered
    ensures !IsSheetsSource(src) && src.columns.Some? ==>
      forall c :: c in src.columns.value ==>
        (TableOption(c) in opts <== !isSearchable || Searchable(c, allowedSearchTypes))
    ensures !IsSheetsSource(src) && src.columns.Some? ==>
      forall o :: o in opts ==> exists c :: c in src.columns.value && o == TableOption(c)
                                           && (!isSearchable || Searchable(c, allowedSearchTypes))
  {
    if IsSheetsSource(src) then
      Map(src.sheetColumns.value, SheetOption)
    else if src.columns.Some? then
      var kept := Filter(src.columns.value,
        (c: TableColumn) => !isSearchable || Searchable(c, allowedSearchTypes));
      FilterKeepsOrderAndCopies(src.columns.value,
        (c: TableColumn) => !isSearchable || Searchable(c, allowedSearchTypes));
      MapKeepsSubsequence(kept, src.columns.value, TableOption);
      Map(kept, TableOption)
    else []
  }

  // ---------------------------------------------------------------------
  // The typed column list

  /** Selection flag of a database column: the primary column is picked
      unless the form excludes it; any other column unless it is explicitly
      unpicked. */
  function IsSelected(c: TableColumn, primary: Option<string>, config: FormConfig): bool {
    if Some(c.name) == primary then !config.excludePrimaryColumn
    else c.isSelected.None? || c.isSelected.value
  }

  function ProcessColumn(c: TableColumn, primary: Option<string>, config: FormConfig): ColumnEntry {
    ColumnEntry(c.name, PrepareColumns(c.columnType), IsSelected(c, primary, config))
  }

  datatype ColumnList = ColumnList(columns: seq<ColumnEntry>, selectedColumns: Option<seq<ColumnEntry>>)

  function ColumnListOf(src: ColumnSources, config: FormConfig): (r: ColumnList)
    // sheet columns are all strings and all selected
    ensures IsSheetsSource(src) ==>
      |r.columns| == |src.sheetColumns.value|
      && forall i :: 0 <= i < |r.columns| ==>
           r.columns[i] == ColumnEntry(src.sheetColumns.value[i].value, "string", true)
    ensures !IsSheetsSource(src) && src.columns.Some? ==>
      var primary := PrimaryColumn(src, config);
      |r.columns| == |src.columns.value|
      && forall i :: 0 <= i < |r.columns| ==>
           var c := src.columns.value[i];
           r.columns[i].name == c.name
           && r.columns[i].columnType == PrepareColumns(c.columnType)
           && (Some(c.name) == primary ==> (r.columns[i].isSelected <==> !config.excludePrimaryColumn))
           && (Some(c.name) != primary ==> (r.columns[i].isSelected <==> c.isSelected != Some(false)))
    ensures !IsSheetsSource(src) && src.columns.None? ==> r == ColumnList([], None)
    // the configured selection, when there is one, overrides the computed list
    ensures IsSheetsSource(src) || src.columns.Some? ==>
      r.selectedColumns == Some(config.selectedColumns.GetOr(r.columns))
  {
    if IsSheetsSource(src) then
      var cols := Map(src.sheetColumns.value, (c: SheetColumn) => ColumnEntry(c.value, "string", true));
      ColumnList(cols, Some(config.selectedColumns.GetOr(cols)))
    else if src.columns.Some? then
      var primary := PrimaryColumn(src, config);
      var cols := Map(src.columns.value, (c: TableColumn) => ProcessColumn(c, primary, config));
      ColumnList(cols, Some(config.selectedColumns.GetOr(cols)))
    else ColumnList([], None)
  }

  // ---------------------------------------------------------------------
  // What the hook returns

  datatype ColumnsView = ColumnsView(
    show: bool,
    primaryColumn: Option<string>,
    columns: Option<seq<ColumnEntry>>,
    selectedColumns: Option<seq<ColumnEntry>>,
    options: seq<DropdownOption>)

  predicate IsPicked(e: ColumnEntry) { e.isSelected }

  function UseColumns(src: ColumnSources, config: FormConfig, isSearchable: bool,
                      allowedSearchTypes: seq<string>): (v: ColumnsView)
    ensures v.show <==> (src.pluginPackage != Some(GoogleSheets) || Truthy(config.sheet))
                        && Truthy(config.table)
    ensures v.primaryColumn == PrimaryColumn(src, config)
    ensures v.options == Options(src, isSearchable, allowedSearchTypes)
    // `columns` is the column list's (possibly configured) selection
    ensures v.columns == ColumnListOf(src, config).selectedColumns
    ensures v.selectedColumns.Some? <==> v.columns.Some?
    ensures v.columns.Some? ==>
      forall e :: e in v.selectedColumns.value <==> e in v.columns.value && e.isSelected
    // the selected columns keep their order and every copy in `columns`
    ensures v.columns.Some? ==>
      IsSubsequence(v.selectedColumns.value, v.columns.value)
      && forall e :: multiset(v.selectedColumns.value)[e] ==
                      if e.isSelected then multiset(v.columns.value)[e] else 0
  {
    var list := ColumnListOf(src, config);
    ColumnsView(
      (src.pluginPackage != Some(GoogleSheets) || Truthy(config.sheet)) && Truthy(config.table),
      PrimaryColumn(src, config),
      list.selectedColumns,
      match list.selectedColumns
        case None => None
        case Some(cols) =>
          FilterKeepsOrderAndCopies(cols, IsPicked);
          Some(Filter(cols, IsPicked)),
      Options(src, isSearchable, allowedSearchTypes))
  }

  /** Without a configured selection, a Google Sheets table has every column selected. */
  lemma SheetsSelectAll(src: ColumnSources, config: FormConfig, isSearchable: bool,
                        allowedSearchTypes: seq<string>)
    requires IsSheetsSource(src) && config.selectedColumns.None?
    ensures var v := UseColumns(src, config, isSearchable, allowedSearchTypes);
      v.selectedColumns == v.columns && |v.columns.value| == |src.sheetColumns.value|
  {
    var cols := ColumnListOf(src, config).columns;
    assert forall i :: 0 <= i < |cols| ==> IsPicked(cols[i]);
    assert Filter(cols, IsPicked) == cols;
  }

  /** With no configured selection and the primary column excluded, the
      primary column is never among the selected columns. */
  lemma ExcludedPrimaryNotSelected(src: ColumnSources, config: FormConfig, isSearchable: bool,
                                   allowedSearchTypes: seq<string>, e: ColumnEntry)
    requires !IsSheetsSource(src) && src.columns.Some?
    requires config.selectedColumns.None? && config.excludePrimaryColumn
    requires PrimaryColumn(src, config) == Some(e.name)
    ensures e !in UseColumns(src, config, isSearchable, allowedSearchTypes).selectedColumns.value
  {
  }
}

=== FILE: user_repository.dfy ===
/** User queries of `CustomUserRepositoryImpl.java`: the criteria each query
    assembles, the provisioned-filter parser, the paging record and the
    "make pristine" update. Users are an in-memory list and a criterion is
    read as the equality (or pattern) test it stands for; paged querying,
    counting and the regular-expression engine are parameters. */
module CustomUserRepository {
  import opened Basics

  datatype LoginSource = FORM | OtherSource(name: string)

  datatype User = User(
    id: string, email: string, tenantId: string,
    source: LoginSource, isEnabled: bool, isProvisioned: bool)

  datatype Field = IdField | EmailField | TenantIdField | IsProvisionedField | PoliciesField
                 | SourceField | IsEnabledField

  datatype Value = Text(text: string) | Flag(flag: bool) | SourceValue(source: LoginSource)

  datatype Criterion =
    | Is(field: Field, value: Value)                     // `where(field).is(value)`
    | RegexMatch(field: Field, pattern: string, options: string)

  /** The value a criterion compares; policies are not compared by value. */
  function FieldValue(u: User, f: Field): Option<Value> {
    match f
    case IdField => Some(Text(u.id))
    case EmailField => Some(Text(u.email))
    case TenantIdField => Some(Text(u.tenantId))
    case IsProvisionedField => Some(Flag(u.isProvisioned))
    case SourceField => Some(SourceValue(u.source))
    case IsEnabledField => Some(Flag(u.isEnabled))
    case PoliciesField => None
  }

  /** `regex(text, pattern, options)` answers whether a field matches. */
  type RegexEngine = (string, string, string) -> bool

  predicate Matches(u: User, c: Criterion, regex: RegexEngine) {
    match c
    case Is(f, v) => FieldValue(u, f) == Some(v)
    case RegexMatch(f, p, o) =>
      match FieldValue(u, f)
      case Some(Text(t)) => regex(t, p, o)
      case _ => false
  }

  /** A list of criteria is their conjunction. */
  predicate MatchesAll(u: User, cs: seq<Criterion>, regex: RegexEngine) {
    forall i :: 0 <= i < |cs| ==> Matches(u, cs[i], regex)
  }

  // ---------------------------------------------------------------------
  // System users

  /** `getSystemGeneratedUserEmails`: the inherited set and the provisioning user. */
  function SystemGeneratedUserEmails(inherited: set<string>, provisioningUser: string): (r: set<string>)
    ensures inherited <= r && provisioningUser in r
    ensures forall e :: e in r ==> e in inherited || e == provisioningUser
  {
    inherited + {provisioningUser}
  }

  // ---------------------------------------------------------------------
  // The provisioned filter

  /** Query parameters with their values, as a multi-value map. */
  type Filters = map<string, seq<string>>

  /** `MultiValueMap.getFirst`: the first value, absent for a missing key or no values. */
  function GetFirst(filters: Filters, key: string): (r: Option<string>)
    ensures r.Some? <==> key in filters && |filters[key]| > 0
    ensures r.Some? ==> r.value == filters[key][0]
  {
    if key in filters && |filters[key]| > 0 then Some(filters[key][0]) else None
  }

  /** Equal up to the case of ASCII letters. */
  predicate EqualsIgnoringCase(a: string, b: string) {
    |a| == |b| && forall i :: 0 <= i < |a| ==> LowerChar(a[i]) == LowerChar(b[i])
  }

  /** The flag a provisioned-filter value names, if any. */
  function ProvisionedFlag(value: string): (r: Option<bool>)
    ensures r == Some(true) <==> EqualsIgnoringCase(value, "true")
    ensures r == Some(false) <==> EqualsIgnoringCase(value, "false")
  {
    var lower := ToLower(value);
    LowerEqualsLiteral(value, "true");
    LowerEqualsLiteral(value, "false");
    if lower == "true" then Some(true)
    else if lower == "false" then Some(false)
    else None
  }

  /** Lower-casing then comparing with a lower-case literal is a case-blind comparison. */
  lemma LowerEqualsLiteral(a: string, b: string)
    requires forall i :: 0 <= i < |b| ==> !IsUpper(b[i])
    ensures ToLower(a) == b <==> EqualsIgnoringCase(a, b)
  {
    if EqualsIgnoringCase(a, b) {
      assert forall i :: 0 <= i < |b| ==> ToLower(a)[i] == b[i];
    }
  }

  /** `getCriteriaListFromFilters`. */
  function CriteriaFromFilters(filters: Filters, provisionedFilter: string): (r: seq<Criterion>)
    ensures |r| <= 1
    ensures !Truthy(GetFirst(filters, provisionedFilter)) ==> r == []
    ensures forall c :: c in r ==> c.Is? && c.field == IsProvisionedField && c.value.Flag?
    ensures forall b: bool :: Is(IsProvisionedField, Flag(b)) in r <==>
      Truthy(GetFirst(filters, provisionedFilter))
      && EqualsIgnoringCase(GetFirst(filters, provisionedFilter).value, if b then "true" else "false")
  {
    var first := GetFirst(filters, provisionedFilter);
    if Truthy(first) then
      match ProvisionedFlag(first.value)
      case Some(b) => [Is(IsProvisionedField, Flag(b))]
      case None => []
    else []
  }

  // ---------------------------------------------------------------------
  // Assembled queries

  datatype UserQuery = UserQuery(criteria: seq<Criterion>, includedFields: Option<seq<Field>>)

  /** `getAllUserObjectsWithEmail`: the tenant criterion, then the filter criteria. */
  function AllUserObjectsQuery(tenantId: string, filters: Filters, provisionedFilter: string)
    : (q: UserQuery)
    ensures 1 <= |q.criteria| <= 2
    ensures q.criteria[0] == Is(TenantIdField, Text(tenantId))
    ensures q.criteria[1..] == CriteriaFromFilters(filters, provisionedFilter)
    ensures q.includedFields == Some([EmailField, IsProvisionedField, PoliciesField])
  {
    UserQuery([Is(TenantIdField, Text(tenantId))] + CriteriaFromFilters(filters, provisionedFilter),
              Some([EmailField, IsProvisionedField, PoliciesField]))
  }

  /** The listed users are exactly the tenant's users whose provisioned flag
      agrees with the filter, when the filter names a flag. */
  lemma AllUserObjectsSelects(tenantId: string, filters: Filters, provisionedFilter: string,
                              u: User, regex: RegexEngine)
    ensures var first := GetFirst(filters, provisionedFilter);
      MatchesAll(u, AllUserObjectsQuery(tenantId, filters, provisionedFilter).criteria, regex)
      <==> u.tenantId == tenantId
           && (Truthy(first) && ProvisionedFlag(first.value).Some? ==>
                 u.isProvisioned == ProvisionedFlag(first.value).value)
  {
    var cs := AllUserObjectsQuery(tenantId, filters, provisionedFilter).criteria;
    assert Matches(u, cs[0], regex) <==> u.tenantId == tenantId;
  }

  /** Paged users and the total count of users matching the same criteria. */
  datatype PagedDomain = PagedDomain(content: seq<User>, count: int, startIndex: int, total: int)

  /** The store's paged query (criteria, page size, start index; sorted by
      email) and its count query. */
  datatype UserStore = UserStore(
    queryPage: (seq<Criterion>, int, int) -> seq<User>,
    countMatching: seq<Criterion> -> int)

  /** The criteria of the paginated listing: a case-insensitive email
      pattern, only when there are emails to look for. */
  function PaginatedCriteria(filterEmails: seq<string>, toRegex: seq<string> -> string)
    : (cs: seq<Criterion>)
    ensures filterEmails == [] <==> cs == []
    ensures cs != [] ==> cs == [RegexMatch(EmailField, toRegex(filterEmails), "i")]
  {
    if |filterEmails| > 0 then [RegexMatch(EmailField, toRegex(filterEmails), "i")] else []
  }

  /** `getUsersWithParamsPaginated`. */
  function UsersWithParamsPaginated(count: int, startIndex: int, filterEmails: seq<string>,
                                    toRegex: seq<string> -> string, store: UserStore)
    : (page: PagedDomain)
    ensures page.count == |page.content|
    ensures page.startIndex == startIndex
    // the page and the total are computed over the same criteria
    ensures var cs := PaginatedCriteria(filterEmails, toRegex);
      page.content == store.queryPage(cs, count, startIndex) && page.total == store.countMatching(cs)
  {
    var cs := PaginatedCriteria(filterEmails, toRegex);
    var users := store.queryPage(cs, count, startIndex);
    PagedDomain(users, |users|, startIndex, store.countMatching(cs))
  }

  /** What the paged and count queries promise about each other: a page of
      size `n` holds at most `n` users, every listed user meets the criteria,
      and the count is never below the size of a page of the same criteria. */
  ghost predicate SoundStore(store: UserStore, regex: RegexEngine) {
    (forall cs, n, k :: n >= 0 ==> |store.queryPage(cs, n, k)| <= n)
    && (forall cs, n, k, u :: u in store.queryPage(cs, n, k) ==> MatchesAll(u, cs, regex))
    && (forall cs, n, k :: |store.queryPage(cs, n, k)| <= store.countMatching(cs))
  }

  /** Over a sound store, the page never outgrows the requested size or the
      total, and with email filters every listed user's email matches the
      case-insensitive pattern built from them. */
  lemma PageWithinTotal(count: int, startIndex: int, filterEmails: seq<string>,
                        toRegex: seq<string> -> string, store: UserStore, regex: RegexEngine)
    requires SoundStore(store, regex)
    ensures var page := UsersWithParamsPaginated(count, startIndex, filterEmails, toRegex, store);
      && page.count <= page.total
      && (count >= 0 ==> page.count <= count)
      && (filterEmails != [] ==>
            forall u :: u in page.content ==> regex(u.email, toRegex(filterEmails), "i"))
  {
    var cs := PaginatedCriteria(filterEmails, toRegex);
    var page := UsersWithParamsPaginated(count, startIndex, filterEmails, toRegex, store);
    if filterEmails != [] {
      forall u | u in page.content ensures regex(u.email, toRegex(filterEmails), "i") {
        assert MatchesAll(u, cs, regex);
        assert Matches(u, cs[0], regex);
      }
    }
  }

  /** Without email filters every user passes the paginated criteria. */
  lemma NoEmailFilterMatchesAll(toRegex: seq<string> -> string, u: User, regex: RegexEngine)
    ensures MatchesAll(u, PaginatedCriteria([], toRegex), regex)
  {
  }

  // ---------------------------------------------------------------------
  // Making users pristine

  /** Users of the tenant who signed in through `source`. */
  function PristineCriteria(source: LoginSource, tenantId: string): seq<Criterion> {
    [Is(TenantIdField, Text(tenantId)), Is(SourceField, SourceValue(source))]
  }

  /** The update: back to form login, disabled. */
  function Pristine(u: User): User {
    u.(source := FORM, isEnabled := false)
  }

  /** Apply the update to every user matching the criteria; the count is the
      number of documents the update actually changed. */
  function UpdateByCriteria(users: seq<User>, cs: seq<Criterion>, regex: RegexEngine)
    : (r: (seq<User>, nat))
    ensures |r.0| == |users|
    ensures forall i :: 0 <= i < |users| ==>
      r.0[i] == if MatchesAll(users[i], cs, regex) then Pristine(users[i]) else users[i]
    ensures r.1 <= |users|
  {
    if users == [] then ([], 0)
    else
      var rest := UpdateByCriteria(users[1..], cs, regex);
      var u := users[0];
      var u' := if MatchesAll(u, cs, regex) then Pristine(u) else u;
      ([u'] + rest.0, rest.1 + if u' != u then 1 else 0)
  }

  /** The modified count is positive exactly when some user changed. */
  lemma {:induction false} ModifiedCountPositive(users: seq<User>, cs: seq<Criterion>, regex: RegexEngine)
    ensures var r := UpdateByCriteria(users, cs, regex);
      r.1 > 0 <==> exists i :: 0 <= i < |users| && r.0[i] != users[i]
    decreases |users|
  {
    if users != [] {
      var r := UpdateByCriteria(users, cs, regex);
      var rest := UpdateByCriteria(users[1..], cs, regex);
      ModifiedCountPositive(users[1..], cs, regex);
      if rest.1 > 0 {
        var i :| 0 <= i < |users[1..]| && rest.0[i] != users[1..][i];
        assert r.0[i + 1] != users[i + 1];
      }
      if exists i :: 0 <= i < |users| && r.0[i] != users[i] {
        var i :| 0 <= i < |users| && r.0[i] != users[i];
        if i > 0 {
          assert rest.0[i - 1] != users[1..][i - 1];
        }
      }
    }
  }

  /** `makeUserPristineBasedOnLoginSourceAndTenantId`: the users afterwards
      and whether any of them changed. */
  function MakeUserPristine(users: seq<User>, source: LoginSource, tenantId: string, regex: RegexEngine)
    : (r: (seq<User>, bool))
    ensures |r.0| == |users|
    // the tenant's users of that source are now form users and disabled; everyone else is untouched
    ensures forall i :: 0 <= i < |users| ==>
      if users[i].tenantId == tenantId && users[i].source == source
      then r.0[i] == users[i].(source := FORM, isEnabled := false)
      else r.0[i] == users[i]
    ensures r.1 <==> exists i :: 0 <= i < |users| && r.0[i] != users[i]
  {
    var cs := PristineCriteria(source, tenantId);
    var (after, modified) := UpdateByCriteria(users, cs, regex);
    ModifiedCountPositive(users, cs, regex);
    forall i | 0 <= i < |users|
      ensures MatchesAll(users[i], cs, regex) <==> users[i].tenantId == tenantId && users[i].source == source
    {
      assert Matches(users[i], cs[0], regex) <==> users[i].tenantId == tenantId;
      assert Matches(users[i], cs[1], regex) <==> users[i].source == source;
    }
    (after, modified > 0)
  }

  /** For a source other than form login the answer is whether the tenant
      had any user of that source at all. */
  lemma PristineReportsMatchedUsers(users: seq<User>, source: LoginSource, tenantId: string,
                                    regex: RegexEngine)
    requires source != FORM
    ensures MakeUserPristine(users, source, tenantId, regex).1 <==>
      exists i :: 0 <= i < |users| && users[i].tenantId == tenantId && users[i].source == source
  {
    var r := MakeUserPristine(users, source, tenantId, regex);
    if exists i :: 0 <= i < |users| && users[i].tenantId == tenantId && users[i].source == source {
      var i :| 0 <= i < |users| && users[i].tenantId == tenantId && users[i].source == source;
      assert r.0[i].source == FORM;
    }
  }
}

=== FILE: user_workspace.dfy ===
/** Workspace membership rules of `UserWorkspaceServiceImpl.java`: the
    last-administrator guard, changing the role of a user group, flattening
    permission groups into member rows and merging those with the user rows.
    Repository and service calls are outside the model; their answers arrive
    as a `Directory` value. Reactive sequencing becomes plain control flow. */
module UserWorkspace {
  import opened Basics
  import InsertionSort

  datatype UserGroup = UserGroup(id: string, name: string)

  /** A role. `assignedToGroupIds` is the iteration order of the group-id set. */
  datatype PermissionGroup = PermissionGroup(
    id: string, name: string, description: Option<string>,
    assignedToUserIds: set<string>, assignedToGroupIds: seq<string>)

  datatype RoleInfo = RoleInfo(id: string, name: string, description: Option<string>, entityType: string)

  /** A row of the workspace member list, for a user or for a user group. */
  datatype MemberInfo = MemberInfo(
    userGroupId: Option<string>, username: Option<string>, name: Option<string>,
    roles: Option<seq<RoleInfo>>)

  /** `FieldName.ADMINISTRATOR`, the prefix of a workspace's administrator role. */
  const Administrator: string := "Administrator"

  /** `Workspace.class.getSimpleName()`. */
  const WorkspaceEntityType: string := "Workspace"

  predicate StartsWith(s: string, prefix: string) {
    |prefix| <= |s| && s[..|prefix|] == prefix
  }

  /** The role is an administrator role held by exactly one assignee, a
      single user or a single group. */
  function IsLastAdminRoleEntity(pg: PermissionGroup): (b: bool)
    ensures b ==> StartsWith(pg.name, Administrator)
    ensures b ==> |pg.assignedToUserIds| + |pg.assignedToGroupIds| == 1
    ensures StartsWith(pg.name, Administrator) && |pg.assignedToUserIds| + |pg.assignedToGroupIds| == 1 ==> b
  {
    StartsWith(pg.name, Administrator)
    && ((|pg.assignedToUserIds| == 1 && |pg.assignedToGroupIds| == 0)
        || (|pg.assignedToUserIds| == 0 && |pg.assignedToGroupIds| == 1))
  }

  // ---------------------------------------------------------------------
  // Changing the role of a member

  datatype FieldName = UsernameOrGroupId | WorkspaceField | UserGroupField

  datatype WorkspaceError =
    | InvalidParameter(field: FieldName)
    | NoResourceFound(field: FieldName, id: string)
    | ActionIsNotAuthorized
    | RemoveLastWorkspaceAdmin
    | MoreThanOneRole           // `single()` on a stream of several roles
    | MissingUserGroup          // a member row whose group the repository did not return

  datatype UpdatePermissionGroupDTO = UpdatePermissionGroupDTO(
    username: Option<string>, userGroupId: Option<string>, newPermissionGroupId: Option<string>)

  /** Answers of the repositories and the permission-group service. */
  datatype Directory = Directory(
    workspace: Option<string>,                      // the workspace, readable by the caller
    userGroup: Option<UserGroup>,                   // the user group in the default tenant
    currentRoles: seq<PermissionGroup>,             // the group's default roles in the workspace
    newRole: Option<PermissionGroup>,               // the requested role, assignable by the caller
    assignedRole: PermissionGroup)                  // what assigning the new role returns

  datatype RoleChange = Unassign(roleId: string, userGroupId: string) | Assign(roleId: string, userGroupId: string)

  datatype UpdateOutcome =
    | DelegatedToUserPath
    | Failed(error: WorkspaceError)
    | Updated(member: MemberInfo, changes: seq<RoleChange>)

  /** Java's `Character.isWhitespace`: the space, line and paragraph
      separators other than the non-breaking ones, and the control
      characters tab to carriage return and U+001C to U+001F. */
  predicate IsJavaWhitespace(c: char) {
    ('\U{9}' <= c <= '\U{D}') || ('\U{1C}' <= c <= '\U{20}')
    || c == '\U{1680}' || ('\U{2000}' <= c <= '\U{2006}') || ('\U{2008}' <= c <= '\U{200A}')
    || c == '\U{2028}' || c == '\U{2029}' || c == '\U{205F}' || c == '\U{3000}'
  }

  /** Spring's `StringUtils.hasText`: present and holding a non-whitespace character. */
  predicate HasText(s: Option<string>) {
    s.Some? && exists i :: 0 <= i < |s.value| && !IsJavaWhitespace(s.value[i])
  }

  /** The role to take away from the group, or the error that stops the change. */
  function RoleToUnassign(workspaceId: string, userGroupId: string, dir: Directory)
    : (r: Result<(PermissionGroup, UserGroup), WorkspaceError>)
    ensures r.Ok? ==> |dir.currentRoles| == 1 && r.value.0 == dir.currentRoles[0]
                      && !IsLastAdminRoleEntity(r.value.0) && Some(r.value.1) == dir.userGroup
    ensures |dir.currentRoles| == 1 && IsLastAdminRoleEntity(dir.currentRoles[0]) ==> r.Err?
    // which lookup failed, in the order the zip subscribes to them
    ensures dir.workspace.None? ==> r == Err(NoResourceFound(WorkspaceField, workspaceId))
    ensures dir.workspace.Some? && dir.userGroup.None? ==>
      r == Err(NoResourceFound(UserGroupField, userGroupId))
    // then the roles the group holds: none, several, or the last administrator role
    ensures dir.workspace.Some? && dir.userGroup.Some? && |dir.currentRoles| == 0 ==>
      r == Err(ActionIsNotAuthorized)
    ensures dir.workspace.Some? && dir.userGroup.Some? && |dir.currentRoles| > 1 ==>
      r == Err(MoreThanOneRole)
    ensures (dir.workspace.Some? && dir.userGroup.Some? && |dir.currentRoles| == 1
             && IsLastAdminRoleEntity(dir.currentRoles[0])) ==> r == Err(RemoveLastWorkspaceAdmin)
  {
    if dir.workspace.None? then Err(NoResourceFound(WorkspaceField, workspaceId))
    else if dir.userGroup.None? then Err(NoResourceFound(UserGroupField, userGroupId))
    else if |dir.currentRoles| == 0 then Err(ActionIsNotAuthorized)
    else if |dir.currentRoles| > 1 then Err(MoreThanOneRole)
    else if IsLastAdminRoleEntity(dir.currentRoles[0]) then Err(RemoveLastWorkspaceAdmin)
    else Ok((dir.currentRoles[0], dir.userGroup.value))
  }

  function UpdatePermissionGroupForMember(workspaceId: string, dto: UpdatePermissionGroupDTO, dir: Directory)
    : (r: UpdateOutcome)
    ensures dto.username.None? && dto.userGroupId.None? <==> r == Failed(InvalidParameter(UsernameOrGroupId))
    ensures dto.username.Some? <==> r == DelegatedToUserPath
    // the last administrator cannot be unassigned; nothing changes
    ensures dto.username.None? && dto.userGroupId.Some? && HasText(dto.newPermissionGroupId) ==>
      (dir.newRole.None? ==> r == Failed(ActionIsNotAuthorized))
    ensures dto.username.None? && dto.userGroupId.Some? && dir.workspace.Some? && dir.userGroup.Some?
            && |dir.currentRoles| == 1 && IsLastAdminRoleEntity(dir.currentRoles[0])
            && (HasText(dto.newPermissionGroupId) ==> dir.newRole.Some?) ==>
      r == Failed(RemoveLastWorkspaceAdmin)
    // once the new role (if any) is found, the change succeeds exactly when the role to take
    // away is found, and otherwise fails with the error that lookup gives
    ensures (dto.username.None? && dto.userGroupId.Some?
             && (HasText(dto.newPermissionGroupId) ==> dir.newRole.Some?)) ==>
      (r.Updated? <==> RoleToUnassign(workspaceId, dto.userGroupId.value, dir).Ok?)
      && (RoleToUnassign(workspaceId, dto.userGroupId.value, dir).Err? ==>
            r == Failed(RoleToUnassign(workspaceId, dto.userGroupId.value, dir).error))
    // a change happens only when the workspace, the group and its single current role are found
    ensures r.Updated? ==>
      dto.userGroupId.Some? && dir.workspace.Some? && dir.userGroup.Some? && |dir.currentRoles| == 1
      && !IsLastAdminRoleEntity(dir.currentRoles[0])
      && (HasText(dto.newPermissionGroupId) ==> dir.newRole.Some?)
    // every successful change first unassigns the current role
    ensures r.Updated? ==>
      |r.changes| >= 1 && r.changes[0] == Unassign(dir.currentRoles[0].id, dir.userGroup.value.id)
      && r.member.userGroupId == Some(dir.userGroup.value.id)
      && r.member.name == Some(dir.userGroup.value.name)
    // no new role: unassign only, and the row carries no roles
    ensures r.Updated? && !HasText(dto.newPermissionGroupId) ==>
      |r.changes| == 1 && r.member.roles.None?
    // a new role: unassign, then assign it; the row carries exactly that role
    ensures r.Updated? && HasText(dto.newPermissionGroupId) ==>
      r.changes == [r.changes[0], Assign(dir.newRole.value.id, dir.userGroup.value.id)]
      && r.member.roles == Some([RoleInfo(dir.assignedRole.id, dir.assignedRole.name,
                                          dir.assignedRole.description, WorkspaceEntityType)])
  {
    if dto.username.None? && dto.userGroupId.None? then Failed(InvalidParameter(UsernameOrGroupId))
    else if dto.username.Some? then DelegatedToUserPath
    else if !HasText(dto.newPermissionGroupId) then
      match RoleToUnassign(workspaceId, dto.userGroupId.value, dir)
      case Err(e) => Failed(e)
      case Ok((current, group)) =>
        Updated(MemberInfo(Some(group.id), None, Some(group.name), None), [Unassign(current.id, group.id)])
    else if dir.newRole.None? then Failed(ActionIsNotAuthorized)
    else
      match RoleToUnassign(workspaceId, dto.userGroupId.value, dir)
      case Err(e) => Failed(e)
      case Ok((current, group)) =>
        var role := dir.assignedRole;
        Updated(
          MemberInfo(Some(group.id), None, Some(group.name),
                     Some([RoleInfo(role.id, role.name, role.description, WorkspaceEntityType)])),
          [Unassign(current.id, group.id), Assign(dir.newRole.value.id, group.id)])
  }

  /** The role ids a user group holds after a sequence of role changes,
      starting from `held`; changes for other groups leave it alone. */
  function HeldAfter(held: set<string>, groupId: string, changes: seq<RoleChange>): set<string>
    decreases |changes|
  {
    if changes == [] then held
    else
      var c := changes[0];
      var held' :=
        if c.userGroupId != groupId then held
        else if c.Unassign? then held - {c.roleId}
        else held + {c.roleId};
      HeldAfter(held', groupId, changes[1..])
  }

  /** A group that held only its current role ends up holding exactly the
      requested role, or no role when none was requested. */
  lemma {:induction false} UpdateLeavesRequestedRole(workspaceId: string, dto: UpdatePermissionGroupDTO,
                                                     dir: Directory)
    ensures var r := UpdatePermissionGroupForMember(workspaceId, dto, dir);
      r.Updated? ==>
        HeldAfter({dir.currentRoles[0].id}, dir.userGroup.value.id, r.changes)
        == if HasText(dto.newPermissionGroupId) then {dir.newRole.value.id} else {}
  {
    var r := UpdatePermissionGroupForMember(workspaceId, dto, dir);
    if r.Updated? {
      var current := dir.currentRoles[0].id;
      var g := dir.userGroup.value.id;
      // the first change takes the current role away
      assert r.changes != [] && r.changes[0] == Unassign(current, g);
      assert {current} - {current} == {};
      assert HeldAfter({current}, g, r.changes) == HeldAfter({}, g, r.changes[1..]);
      if HasText(dto.newPermissionGroupId) {
        var a := Assign(dir.newRole.value.id, g);
        assert r.changes[1..] == [a];
        assert HeldAfter({}, g, [a]) == HeldAfter({a.roleId}, g, []);
      } else {
        assert r.changes[1..] == [];
      }
    }
  }

  // ---------------------------------------------------------------------
  // Member rows for user groups

  function RoleInfoOf(pg: PermissionGroup): RoleInfo {
    RoleInfo(pg.id, pg.name, pg.description, WorkspaceEntityType)
  }

  /** The row for one (role, assigned group) pair. */
  function GroupRow(pg: PermissionGroup, groupId: string): MemberInfo {
    MemberInfo(Some(groupId), None, None, Some([RoleInfoOf(pg)]))
  }

  function GroupRows(pg: PermissionGroup, ids: seq<string>): (rows: seq<MemberInfo>)
    ensures |rows| == |ids|
    ensures forall j :: 0 <= j < |ids| ==> rows[j] == GroupRow(pg, ids[j])
  {
    if ids == [] then [] else [GroupRow(pg, ids[0])] + GroupRows(pg, ids[1..])
  }

  /** Number of rows the roles before position `k` produce. */
  function Offset(pgs: seq<PermissionGroup>, k: nat): nat
    requires k <= |pgs|
  {
    if k == 0 then 0 else Offset(pgs, k - 1) + |pgs[k - 1].assignedToGroupIds|
  }

  /** `mapPermissionGroupListToUserGroups`. */
  function MapPermissionGroupListToUserGroups(pgs: seq<PermissionGroup>): (rows: seq<MemberInfo>)
    ensures |rows| == Offset(pgs, |pgs|)
    ensures forall r :: r in rows ==>
      r.userGroupId.Some? && r.roles.Some? && |r.roles.value| == 1
      && r.roles.value[0].entityType == WorkspaceEntityType
  {
    if pgs == [] then []
    else
      var init := pgs[..|pgs| - 1];
      var last := pgs[|pgs| - 1];
      OffsetPrefix(pgs, |pgs| - 1);
      MapPermissionGroupListToUserGroups(init) + GroupRows(last, last.assignedToGroupIds)
  }

  lemma {:induction false} OffsetPrefix(pgs: seq<PermissionGroup>, k: nat)
    requires k <= |pgs|
    ensures Offset(pgs[..k], k) == Offset(pgs, k)
    decreases k
  {
    if k > 0 {
      assert pgs[..k][..k - 1] == pgs[..k - 1];
      OffsetPrefix(pgs[..k], k - 1);
      OffsetPrefix(pgs, k - 1);
    }
  }

  /** Row `Offset(k) + j` is the pair (role k, its j-th assigned group):
      one row per pair, roles in order, groups in order within a role. */
  lemma {:induction false} FlattenedRowAt(pgs: seq<PermissionGroup>, k: nat, j: nat)
    requires k < |pgs| && j < |pgs[k].assignedToGroupIds|
    ensures Offset(pgs, k) + j < |MapPermissionGroupListToUserGroups(pgs)|
    ensures MapPermissionGroupListToUserGroups(pgs)[Offset(pgs, k) + j]
            == GroupRow(pgs[k], pgs[k].assignedToGroupIds[j])
    decreases |pgs|
  {
    var init := pgs[..|pgs| - 1];
    var last := pgs[|pgs| - 1];
    OffsetPrefix(pgs, |pgs| - 1);
    OffsetMonotone(pgs, k + 1, |pgs|);
    if k < |pgs| - 1 {
      assert init[k] == pgs[k];
      OffsetPrefix(pgs, k);
      assert Offset(init, k) == Offset(pgs, k) by {
        assert init[..k] == pgs[..k];
        OffsetPrefix(init, k);
      }
      FlattenedRowAt(init, k, j);
    }
  }

  lemma {:induction false} OffsetMonotone(pgs: seq<PermissionGroup>, a: nat, b: nat)
    requires a <= b <= |pgs|
    ensures Offset(pgs, a) <= Offset(pgs, b)
    decreases b - a
  {
    if a < b {
      OffsetMonotone(pgs, a, b - 1);
    }
  }

  // ---------------------------------------------------------------------
  // The merged member list

  /** A row after its display name and username are set from its user group. */
  function Named(row: MemberInfo, g: UserGroup): MemberInfo {
    row.(name := Some(g.name), username := Some(g.name))
  }

  /** Name every group row; a row whose group the repository did not return fails. */
  function NameGroupRows(rows: seq<MemberInfo>, groups: map<string, UserGroup>)
    : (r: Result<seq<MemberInfo>, WorkspaceError>)
    requires forall i :: 0 <= i < |rows| ==> rows[i].userGroupId.Some?
    ensures r.Ok? <==> forall i :: 0 <= i < |rows| ==> rows[i].userGroupId.value in groups
    ensures r.Ok? ==> |r.value| == |rows| && forall i :: 0 <= i < |rows| ==>
      r.value[i] == Named(rows[i], groups[rows[i].userGroupId.value])
  {
    if rows == [] then Ok([])
    else if rows[0].userGroupId.value !in groups then Err(MissingUserGroup)
    else
      match NameGroupRows(rows[1..], groups)
      case Err(e) => Err(e)
      case Ok(rest) =>
        Ok([Named(rows[0], groups[rows[0].userGroupId.value])] + rest)
  }

  lemma FlattenedRowsAreGroupRows(roles: seq<PermissionGroup>)
    ensures var rows := MapPermissionGroupListToUserGroups(roles);
      forall i :: 0 <= i < |rows| ==> rows[i].userGroupId.Some?
  {
    var rows := MapPermissionGroupListToUserGroups(roles);
    assert forall i :: 0 <= i < |rows| ==> rows[i] in rows;
  }

  /** `getWorkspaceMembers`: the group rows (named after their groups)
      followed by the user rows, sorted with the member comparator. */
  function GetWorkspaceMembers(userRows: seq<MemberInfo>, roles: seq<PermissionGroup>,
                               groups: map<string, UserGroup>,
                               leq: (MemberInfo, MemberInfo) -> bool)
    : (r: Result<seq<MemberInfo>, WorkspaceError>)
    ensures r.Ok? ==> |r.value| == Offset(roles, |roles|) + |userRows|
    ensures r.Ok? ==> multiset(userRows) <= multiset(r.value)
  {
    var rows := MapPermissionGroupListToUserGroups(roles);
    FlattenedRowsAreGroupRows(roles);
    match NameGroupRows(rows, groups)
    case Err(e) => Err(e)
    case Ok(named) => Ok(InsertionSort.Sort(named + userRows, leq))
  }

  /** `id` is assigned some role of the workspace. */
  ghost predicate AssignedGroup(roles: seq<PermissionGroup>, id: string) {
    exists k, j :: 0 <= k < |roles| && 0 <= j < |roles[k].assignedToGroupIds|
                   && roles[k].assignedToGroupIds[j] == id
  }

  /** Every flattened row comes from some (role, assigned group) pair. */
  lemma {:induction false} FlattenedRowSource(pgs: seq<PermissionGroup>, i: nat)
    requires i < |MapPermissionGroupListToUserGroups(pgs)|
    ensures exists k, j ::
      && 0 <= k < |pgs| && 0 <= j < |pgs[k].assignedToGroupIds|
      && MapPermissionGroupListToUserGroups(pgs)[i] == GroupRow(pgs[k], pgs[k].assignedToGroupIds[j])
    decreases |pgs|
  {
    var init := pgs[..|pgs| - 1];
    var last := pgs[|pgs| - 1];
    var front := MapPermissionGroupListToUserGroups(init);
    var rows := MapPermissionGroupListToUserGroups(pgs);
    assert rows == front + GroupRows(last, last.assignedToGroupIds);
    if i < |front| {
      FlattenedRowSource(init, i);
      var k, j :| 0 <= k < |init| && 0 <= j < |init[k].assignedToGroupIds|
        && front[i] == GroupRow(init[k], init[k].assignedToGroupIds[j]);
      assert init[k] == pgs[k];
      assert rows[i] == front[i];
    } else {
      var j := i - |front|;
      assert rows[i] == GroupRow(last, last.assignedToGroupIds[j]);
    }
  }

  /** Listing the members fails exactly when some role is assigned to a
      user group the repository does not return. */
  lemma MembersFailIffGroupMissing(userRows: seq<MemberInfo>, roles: seq<PermissionGroup>,
                                   groups: map<string, UserGroup>,
                                   leq: (MemberInfo, MemberInfo) -> bool)
    ensures GetWorkspaceMembers(userRows, roles, groups, leq).Ok?
            <==> forall id :: AssignedGroup(roles, id) ==> id in groups
  {
    var rows := MapPermissionGroupListToUserGroups(roles);
    FlattenedRowsAreGroupRows(roles);
    var ok := forall i :: 0 <= i < |rows| ==> rows[i].userGroupId.value in groups;
    assert GetWorkspaceMembers(userRows, roles, groups, leq).Ok? <==> ok;
    if ok {
      forall id | AssignedGroup(roles, id) ensures id in groups {
        var k, j :| 0 <= k < |roles| && 0 <= j < |roles[k].assignedToGroupIds|
                    && roles[k].assignedToGroupIds[j] == id;
        FlattenedRowAt(roles, k, j);
      }
    } else {
      var i :| 0 <= i < |rows| && rows[i].userGroupId.value !in groups;
      FlattenedRowSource(roles, i);
      var k, j :| 0 <= k < |roles| && 0 <= j < |roles[k].assignedToGroupIds|
        && rows[i] == GroupRow(roles[k], roles[k].assignedToGroupIds[j]);
      assert AssignedGroup(roles, rows[i].userGroupId.value);
    }
  }

  /** Every (role, assigned group) pair appears in the member list as a row
      named after its group. */
  lemma MembersListEveryAssignment(userRows: seq<MemberInfo>, roles: seq<PermissionGroup>,
                                   groups: map<string, UserGroup>,
                                   leq: (MemberInfo, MemberInfo) -> bool, k: nat, j: nat)
    requires GetWorkspaceMembers(userRows, roles, groups, leq).Ok?
    requires k < |roles| && j < |roles[k].assignedToGroupIds|
    ensures var id := roles[k].assignedToGroupIds[j];
      id in groups
      && Named(GroupRow(roles[k], id), groups[id]) in GetWorkspaceMembers(userRows, roles, groups, leq).value
  {
    var rows := MapPermissionGroupListToUserGroups(roles);
    FlattenedRowsAreGroupRows(roles);
    var named := NameGroupRows(rows, groups).value;
    FlattenedRowAt(roles, k, j);
    var i := Offset(roles, k) + j;
    var id := roles[k].assignedToGroupIds[j];
    assert named[i] == Named(GroupRow(roles[k], id), groups[id]);
    assert (named + userRows)[i] == named[i];
    InsertionSort.SortKeepsElement(named + userRows, leq, i);
  }

  /** With a consistent comparator the merged list is ordered. */
  lemma MembersSorted(userRows: seq<MemberInfo>, roles: seq<PermissionGroup>,
                      groups: map<string, UserGroup>, leq: (MemberInfo, MemberInfo) -> bool)
    requires InsertionSort.TotalPreorder(leq)
    ensures var r := GetWorkspaceMembers(userRows, roles, groups, leq);
      r.Ok? ==> InsertionSort.Sorted(r.value, leq)
  {
    var rows := MapPermissionGroupListToUserGroups(roles);
    FlattenedRowsAreGroupRows(roles);
    var named := NameGroupRows(rows, groups);
    if named.Ok? {
      InsertionSort.SortSorted(named.value + userRows, leq);
    }
  }
}
